=== FILE: README.md ===
# Simulated trading platform: the handler layer in Dafny

This project models the state-changing core of the sim-trade-platform
backend. Users hold a virtual balance, open and close trades, subscribe
to traders, fund per-currency wallets and copy traders' signals. Each of
these is a handler that loads rows, checks its guards in a fixed order,
computes a balance delta and writes rows back. A smaller catalogue of
assets, asset signals, simulated trades and copy traders is maintained by
partial-update, insert and delete handlers.

The store is one class, `Store.Store`. Each table is a field of it:

- `users`, `trades`, `traders`, `subscriptions`, `traderSignals`,
  `copyTrades`, `assets`, `signals`, `simulatedTrades` and `copyTraders`
  are maps from id to row;
- `wallets` is a map keyed by `(userId, currency)`;
- `transactions` is an append-only sequence;
- `nextId` issues fresh serial ids.

Each handler is a method with `modifies this` that returns a `Result`.
Every handler's contract states:

- when it fails, and with which error, in the source's guard order;
- that a failure writes nothing;
- the returned row;
- the entire new store, as the old snapshot with only the written
  tables replaced.

The class invariant `Valid()` is `Invariants.Consistent` on the snapshot.
It requires the following:

- every id is below the counter;
- every foreign key resolves: the owners of trades, traders, wallets,
  transactions and subscriptions, the assets of signals and simulated
  trades, and the trade of every copy-trade link;
- e-mail, username and asset symbol are unique: the symbol by its
  column's unique key, and e-mail and username as the user tests expect;
- each user has at most one trader profile, which create_trader.ts
  guards with a lookup rather than a key;
- a trade's exit fields are set exactly when it is closed;
- catalogue rows still satisfy the input schemas they were created under.

Every handler preserves `Valid()`. Each has a `...Keeps` lemma in
`invariants.dfy` that proves this for its write.

Files, in dependency order:

- `common.dfy`: Option, Result, errors, and `OrNull`, which models
  JavaScript's `x || null`.
- `schema.dfy`: catalogue rows and the zod input schemas of
  `server/src/schema.ts`, as predicates.
- `catalogue.dfy`: the partial-update merges and the cascade filters of
  asset deletion.
- `ledger.dfy`: ledger rows, the guard functions, the balance deltas and
  the wallet funding rule.
- `queries.dfy`: the read-only filters.
- `tables.dfy`: the store snapshot, the per-table integrity predicates and
  the lemmas about one write to one table.
- `invariants.dfy`: `Consistent` and one preservation lemma per handler.
- `store.dfy`: the class and its handlers.

## Model

| member | source | states |
|---|---|---|
| Store.Store.CreateUser | server/src/handlers/create_user.ts:5-43 | Fails with DuplicateKey exactly when some user already has the e-mail or username, and then nothing is written (no wallet either). Otherwise inserts the user with balance 10000, unverified, no avatar, and phone and country null when absent or empty, together with one USD wallet holding 10000 available and 0 locked. Nothing else changes, and `Valid()` is kept. |
| Store.Store.CreateTrader | server/src/handlers/create_trader.ts:6-51 | Fails with NotFound(Users) for an unknown user. Otherwise fails with TraderProfileExists exactly when the user already has a profile. On success, inserts the profile with 0 followers, profit, win rate and trades, active, bio null when absent. Only `traders` and the counter change. |
| Store.Store.CreateTransaction | server/src/handlers/create_transaction.ts:6-41 | Fails exactly for an unknown user, writing nothing. Otherwise appends one pending transaction with a null processing time, the request's type, amount and currency, and a description and reference that are null when absent. Earlier transactions stay as they were. |
| Store.Store.CreateTrade | server/src/handlers/create_trade.ts:6-71 | The error is `OpenTradeCheck`'s, and a failure writes nothing. On success, inserts one executed trade with null exit fields, and the owner's balance becomes the old balance plus `OpeningDelta`: a buy is debited, a sell credited. Only the trade and the owner's row change. A successful buy never leaves the owner's balance negative, and leaves it at zero exactly when the cost equalled the old balance. |
| Store.Store.CloseTrade | server/src/handlers/close_trade.ts:6-83 | The error is `CloseTradeCheck`'s, and a failure writes nothing. On success, the trade becomes `ClosedTrade` and the owner's balance becomes the old balance plus the profit or loss. Nothing else changes. It requires only that the trade's owner exists, which is what the handler relies on. |
| Store.Store.CloseTradeTwice | server/src/tests/close_trade.test.ts:223-242 | Closing the same trade twice: if the first close succeeds, the second fails with AlreadyClosedOrCancelled, and the owner's balance has moved by the first profit or loss only. |
| Store.Store.CreateSubscription | server/src/handlers/create_subscription.ts:6-73 | The error is `SubscribeCheck`'s, and a failure writes nothing. On success, inserts an active subscription with no end date and lowers the subscriber's balance by exactly the price paid; that balance stays non-negative. The trader and the trader's user are not changed. |
| Store.Store.CancelSubscription | server/src/handlers/get_subscriptions.ts:45-80 | The error is `CancelCheck`'s. On success, only that subscription changes: it becomes cancelled with an end date, and no balance is refunded. |
| Store.Store.FundWallet | server/src/handlers/fund_wallet.ts:6-87 | Fails exactly for an unknown user, writing nothing. Otherwise the wallet of exactly (user, currency) becomes `FundedWallet` of the old one, and exactly one `FundingRecord` is appended. User balances are not written. |
| Store.Store.CopyTrade | server/src/handlers/copy_trade.ts:6-95 | The error is `CopyCheck`'s, and a failure writes nothing. On success, inserts an executed trade of quantity 1 for the subscriber, with the signal's symbol, asset type, side and entry price. It also inserts an executed copy-trade link with an execution time. No balance changes. |
| Store.Store.UpdateUser | server/src/handlers/update_user.ts:6-49 | Fails exactly for an unknown id, writing nothing. Otherwise the row becomes `MergeUser` of the old row, and only that row changes. |
| Store.Store.VerifyUser | server/src/handlers/update_user.ts:51-76 | Fails exactly for an unknown id. Otherwise the row is verified and stamped. Verifying an already verified user changes only the timestamp, so the operation is idempotent. |
| Store.Store.ExecuteTrade | server/src/handlers/execute_trade.ts:6-43 | Fails exactly for an unknown asset, writing nothing. Otherwise appends a simulated trade at the asset's current price, with the request's asset, side and quantity. The assets are not modified, and each call gets a fresh id. |
| Store.Store.CreateSignal | server/src/handlers/create_signal.ts:6-42 | Fails exactly for an unknown asset. Otherwise inserts a signal that copies the request, with active defaulting to true. Existing signals stay as they were. |
| Store.Store.UpdateAsset | server/src/handlers/update_asset.ts:6-50 | Fails with NotFound for an unknown id, or with DuplicateKey when the merged symbol belongs to another asset (the unique constraint at server/src/db/schema.ts:11). Otherwise only that row changes, to `MergeAsset` of it. |
| Store.Store.UpdateSignal | server/src/handlers/update_signal.ts:6-72 | Fails with NotFound(Signals) first, then with NotFound(Assets) for a provided but unknown asset id. Otherwise only that row changes, to `MergeSignal` of it. |
| Store.Store.DeleteSignal | server/src/handlers/delete_signal.ts:6-28 | Fails exactly for an unknown id. Otherwise removes exactly that signal and returns true. |
| Store.Store.DeleteAsset | server/src/handlers/delete_asset.ts:6-38 | Fails exactly for an unknown id. Otherwise no signal or simulated trade of that asset remains, those of other assets remain unchanged, and the asset is removed. Returns true. |
| Store.Store.UpdateCopyTrader | server/src/handlers/update_copy_trader.ts:6-42 | Fails exactly for an unknown id. Otherwise only that row changes, to `MergeCopyTrader` of it. |
| Store.Store.DeleteCopyTrader | server/src/handlers/delete_copy_trader.ts:6-28 | Fails exactly for an unknown id. Otherwise removes exactly that copy trader and returns true. |
| Ledger.OpeningDelta | server/src/handlers/create_trade.ts:42-47 | A buy lowers the balance by quantity times price; a sell raises it by the same amount. |
| Ledger.ProfitLoss | server/src/handlers/close_trade.ts:26-37 | For a positive quantity, a buy gains exactly when the exit price is above the entry and loses exactly when it is below; a sell the reverse. Equal prices give 0. |
| Ledger.OpenTradeCheck | server/src/handlers/create_trade.ts:9-25 | No error exactly when the user exists and either the trade is a sell or the balance is at least the trade's value, so an equal balance is enough. An unknown user is reported before an insufficient balance. |
| Ledger.CloseTradeCheck | server/src/handlers/close_trade.ts:8-23 | No error exactly when the trade exists and is neither closed nor cancelled, so pending and executed trades can be closed. NotFound comes first. |
| Ledger.ClosedTrade | server/src/handlers/close_trade.ts:40-49 | The closed trade is Closed and well formed, with the given exit price, its profit or loss and a close time. Every other field equals the original's. |
| Ledger.ClosedTradeIsTerminal | server/src/handlers/close_trade.ts:21-23 | Once any trade has been closed, whatever its state before, closing it again is refused, whatever the exit price. |
| Ledger.OpenThenCloseNet | server/src/handlers/close_trade.ts:59-60 | Opening then closing moves the balance by the opening delta plus the profit or loss. Closing at the entry price leaves exactly the opening delta, because the position's value is never returned. |
| Ledger.SubscribeCheck | server/src/handlers/create_subscription.ts:9-41 | No error exactly when the subscriber and trader exist, the balance covers the price (equality is enough) and the price is at least the trader's price (overpaying is allowed). Each error is tied to its place in the order: subscriber, trader, balance, price. |
| Ledger.CancelCheck | server/src/handlers/get_subscriptions.ts:47-59 | No error exactly when the subscription exists and is not already cancelled, so an expired one can be cancelled. |
| Ledger.CopyCheck | server/src/handlers/copy_trade.ts:8-51 | No error exactly when the signal exists and is active, belongs to the given trader, the subscriber exists and an active subscription exists. Each of the five errors is tied to its place in that order. |
| Ledger.FundedWallet | server/src/handlers/fund_wallet.ts:29-60 | Balance and available balance grow by the amount, and the locked balance is unchanged. An existing wallet keeps its id, owner, currency and creation time; a missing one is created with the new id, the given owner and currency, and 0 locked. |
| Ledger.FundingRecord | server/src/handlers/fund_wallet.ts:63-74 | A completed fund-wallet transaction with the user, amount and currency, a reference that is null when absent, and a processing time. |
| Store.Store.FundWalletRepeatedly | server/src/tests/fund_wallet.test.ts:216-253 | Calls fundWallet once per amount on one (user, currency) wallet. For an unknown user nothing changes. Otherwise `FundedSoFar` holds: balance and available balance grow by the sum of the amounts, the locked balance stays, and a first funding creates the wallet. No other wallet changes. One funding transaction for that user, currency and amount is appended per call after the earlier ones, and no other table changes. The store's integrity constraints are kept. |
| Store.FundedSoFarStep | server/src/handlers/fund_wallet.ts:6-87 | One more successful fundWallet call extends the accumulated effect `FundedSoFar` by its amount: one more transaction, and the sum grows by that amount. |
| Ledger.MergeUser | server/src/handlers/update_user.ts:9-27 | Each provided profile field is replaced and the others are kept. Id, e-mail, username, balance, verification and creation time never change, and the update time is refreshed. |
| Ledger.DescriptionNote | server/src/handlers/create_transaction.ts:25 | The description is null exactly when it is absent or empty, and otherwise the given text. |
| Catalogue.MergeAsset | server/src/handlers/update_asset.ts:19-31 | Each provided field is replaced and absent ones are kept. Id and creation time are kept and the update time is refreshed. A valid row merged with a valid update stays valid. |
| Catalogue.MergeSignal | server/src/handlers/update_signal.ts:31-52 | The same, field by field. A provided null description clears it, while an absent one keeps the old value. |
| Catalogue.MergeCopyTrader | server/src/handlers/update_copy_trader.ts:9-24 | The same, field by field. A counter given as 0 counts as provided. |
| Catalogue.MergeAssetIdempotent | server/src/handlers/update_asset.ts:19-31 | Applying the same update twice equals applying it once at the later time. |
| Catalogue.EmptyAssetUpdateTouchesOnlyTimestamp | server/src/handlers/update_asset.ts:19-21 | An update with no fields only refreshes the update time. |
| Catalogue.SignalsWithoutAsset | server/src/handlers/delete_asset.ts:19-21 | Keeps exactly the signals of other assets, unchanged. |
| Catalogue.TradesWithoutAsset | server/src/handlers/delete_asset.ts:24-26 | Keeps exactly the simulated trades of other assets, unchanged. |
| Queries.UserSubscriptions | server/src/handlers/get_subscriptions.ts:6-16 | Exactly the subscriptions whose subscriber is the user. |
| Queries.ActiveSubscriptions | server/src/handlers/get_subscriptions.ts:23-38 | Exactly the user's subscriptions whose status is active. |
| Queries.ActiveIsFilteredUserSubscriptions | server/src/handlers/get_subscriptions.ts:25-33 | The active listing is the user listing filtered by status. |
| Queries.HasActiveSubscriptionViaListing | server/src/handlers/copy_trade.ts:38-51 | The copy relay's subscription test holds exactly when the subscriber's active listing contains a subscription to the trader. |
| Queries.CopyTradeHistory | server/src/handlers/copy_trade.ts:97-114 | Fails exactly for an unknown user. Otherwise returns exactly that user's copy trades. |
| Schema.SignalActiveFlag | server/src/schema.ts:90 | A created signal is active unless the request says otherwise. |
| Schema.ValidCreateAsset | server/src/schema.ts:16-20 | A create-asset input is valid exactly when its symbol has 1 to 10 characters, its name is non-empty and its current price is positive. |
| Schema.ValidUpdateAsset | server/src/schema.ts:25-30 | Every field of an update-asset input is optional. A present symbol, name or current price must meet the create-asset constraint. |
| Schema.ValidCreateCopyTrader | server/src/schema.ts:48-53 | A create-copy-trader input is valid exactly when its name is non-empty and its trades won, trades lost and followers counts are non-negative integers. |
| Schema.ValidUpdateCopyTrader | server/src/schema.ts:58-64 | Every field of an update-copy-trader input is optional. A present name must be non-empty, and a present counter must be a non-negative integer. |
| Schema.ValidCreateSignal | server/src/schema.ts:84-91 | A create-signal input needs a positive target price and a positive quantity. Its side can only be buy or sell. |
| Schema.ValidUpdateSignal | server/src/schema.ts:96-104 | Every field of an update-signal input is optional. A present target price or quantity must be positive. |
| Schema.ValidExecuteTrade | server/src/schema.ts:121-125 | An execute-trade input needs a positive quantity. Its side can only be buy or sell. |
| Invariants.Consistent | server/src/db/schema.ts:10-11 | The store's integrity constraints, which `Valid()` is. Every id is below the counter, as the serial ids are. Every foreign key resolves, including the asset of each signal and simulated trade, which delete_asset.ts:19-31 keeps by deleting them with their asset. The asset symbol is unique. E-mail and username are unique. Each user has at most one trader profile (create_trader.ts:19-26). A trade's exit fields are set exactly when it is closed. Catalogue rows satisfy their input schemas. |
| Invariants.EmptyConsistent | server/src/db/schema.ts:9-50 | The empty store is consistent. |
| Invariants.FreshFrom | server/src/db/schema.ts:10 | In a consistent store the next id and every id above it is a key of no table (trader signals included) and the id of no wallet and no transaction. This covers both the row an insert writes at the next id and the second row that user creation, wallet-creating funding and trade copying write at the id after it. |
| Invariants.CreateUserKeeps | server/src/handlers/create_user.ts:8-32 | Inserting a user with an unused e-mail and username, then its wallet, keeps the store consistent. |
| Invariants.InsertTraderKeeps | server/src/handlers/create_trader.ts:19-37 | Inserting the only trader profile of an existing user keeps the store consistent, including one profile per user. |
| Invariants.AppendTransactionKeeps | server/src/handlers/create_transaction.ts:19-29 | Appending a transaction of an existing user with the next id keeps the store consistent. |
| Invariants.TradeAndOwnerKeeps | server/src/handlers/close_trade.ts:40-69 | Inserting or closing a trade and rewriting its owner's balance keeps the store consistent. |
| Invariants.SubscribeKeeps | server/src/handlers/create_subscription.ts:44-61 | Inserting a subscription and rewriting the subscriber's balance keeps the store consistent. |
| Invariants.ReplaceSubscriptionKeeps | server/src/handlers/get_subscriptions.ts:62-69 | Rewriting a subscription with the same subscriber and trader keeps the store consistent. |
| Invariants.FundKeeps | server/src/handlers/fund_wallet.ts:29-74 | Creating or growing the (user, currency) wallet and appending the funding record keeps the store consistent. |
| Invariants.CopyTradeKeeps | server/src/handlers/copy_trade.ts:54-83 | Inserting the copied trade and then its link keeps the store consistent. |
| Invariants.ReplaceUserKeeps | server/src/handlers/update_user.ts:30-33 | Rewriting a user's profile, which keeps its e-mail and username, keeps the store consistent. |
| Invariants.InsertSimulatedTradeKeeps | server/src/handlers/execute_trade.ts:22-30 | Recording a simulated trade of an existing asset keeps the store consistent. |
| Invariants.InsertSignalKeeps | server/src/handlers/create_signal.ts:19-29 | Inserting a valid signal of an existing asset keeps the store consistent. |
| Invariants.ReplaceAssetKeeps | server/src/handlers/update_asset.ts:34-38 | Rewriting an asset with a valid row whose symbol is unused elsewhere keeps the store consistent. |
| Invariants.ReplaceSignalKeeps | server/src/handlers/update_signal.ts:55-59 | Rewriting a signal with a valid row of an existing asset keeps the store consistent. |
| Invariants.RemoveSignalKeeps | server/src/handlers/delete_signal.ts:19-21 | Deleting a signal keeps the store consistent. |
| Invariants.DeleteAssetKeeps | server/src/handlers/delete_asset.ts:19-31 | Deleting an asset together with its signals and simulated trades leaves no dangling asset reference. |
| Invariants.ReplaceCopyTraderKeeps | server/src/handlers/update_copy_trader.ts:27-30 | Rewriting a copy trader with a valid row keeps the store consistent. |
| Invariants.RemoveCopyTraderKeeps | server/src/handlers/delete_copy_trader.ts:19-21 | Deleting a copy trader keeps the store consistent. |

## Left out

- Money, prices and quantities are exact `real`s. The source's
  `parseFloat`/`toString` round trips, binary floating point and the
  store's rounding of numeric columns to 2 or 4 decimals are not modelled.
  Nor are the range limits of the columns: a `numeric(10,2)` price or
  target price (server/src/db/schema.ts:13,34,48) or a `numeric(10,4)`
  quantity (server/src/db/schema.ts:35,47) too large for its precision,
  and an `integer` counter outside the 32-bit range
  (server/src/db/schema.ts:22-24), make the store raise an error, which
  the model does not. Counters are unbounded integers, and the handlers'
  contracts, for example `Store.Store.ExecuteTrade`'s "fails exactly for
  an unknown asset", hold only for values within these limits.
- Timestamps are a `now` parameter of each handler. Wall-clock ordering
  is not modelled.
- One counter issues the ids of every table. The source has one serial
  per table. Only freshness is relied on, and `Invariants.FreshFrom`
  states it.
- Listings are maps keyed by id. The order in which the store returns
  rows is not modelled.
- Each handler call is atomic. Concurrent requests and the read-then-write
  races they allow are not modelled.
- The transport layer (router, HTTP server, startup), error logging and
  rethrowing are not modelled. An error is a `Result` value rather than a
  thrown exception with a message.
- zod parsing is not modelled. The schemas of `server/src/schema.ts` are
  predicates that serve as the preconditions of the catalogue handlers.
- The handlers that only pass a query through are not modelled: trade,
  transaction, wallet, trader, price-feed, educational-content, signal,
  simulated-trade, copy-trader, asset and user lookups. Nor are the plain
  inserts `create_asset`, `create_copy_trader` and
  `create_educational_content`, nor `update_price_feed` and
  `seed_initial_data`.
- `server/src/db/schema.ts` defines only the assets, copy_traders,
  signals and simulated_trades tables. It does not define the users,
  trades, traders, subscriptions, wallets, transactions and copy_trades
  tables, and `server/src/schema.ts` does not define the ledger input
  types. The ledger handlers nevertheless import them from those files,
  and `server/src/index.ts` routes none of the ledger handlers. The
  columns of those tables are taken from the handlers and their tests.
  The uniqueness of user e-mail and username comes from the tests. With
  no input schema, the ledger handlers accept any amount.
- Store.Store.CreateUser, CreateTrader, CreateTrade, CreateSubscription,
  FundWallet, CopyTrade and the other inserting handlers do not restate
  in their own contract that the new ids are unused. That follows from
  `Valid()` through `Invariants.FreshFrom`, for the next id and for the
  id after it.
- Store.Store.CloseTrade requires that the trade's owner exists instead of
  `Valid()`. The handler reads the owner's row without checking it, and a
  valid store guarantees the owner exists.
- Schema.ValidSymbol, ValidAssetName and ValidCopyTraderName count
  characters, while zod's length limits count UTF-16 code units. The two
  differ for characters outside the Basic Multilingual Plane, which the
  model does not distinguish.
- The two signal shapes are kept apart: `Schema.Signal` is the
  asset-catalogue signal, and `Ledger.TraderSignal` is the signal the copy
  relay reads. No handler here creates trader signals.

The handlers also behave as follows, and the model keeps it:

- a pending trade can be closed (close_trade.ts:21);
- closed and cancelled trades share one error (close_trade.ts:21-23);
- subscribing does not credit the trader (create_subscription.ts:44-61);
- copying a trade neither checks nor changes the subscriber's balance
  (copy_trade.ts:54-83).

=== FILE: catalogue.dfy ===
/** What the catalogue handlers write: the partial-update merges of
    update_asset, update_signal and update_copy_trader, and the rows that
    delete_asset removes along with an asset. Each merge replaces exactly
    the fields the request provides, keeps the others and stamps
    `updatedAt`; each keeps a row that satisfies its schema valid. */
module Catalogue {
  import opened Common
  import opened Schema

  /** The asset row after an update request (update_asset.ts:19-31). */
  function MergeAsset(a: Asset, u: UpdateAssetInput, now: Time): (r: Asset)
    ensures r.id == a.id && r.createdAt == a.createdAt && r.updatedAt == now
    ensures r.symbol == (if u.symbol.Some? then u.symbol.value else a.symbol)
    ensures r.name == (if u.name.Some? then u.name.value else a.name)
    ensures r.currentPrice == (if u.currentPrice.Some? then u.currentPrice.value else a.currentPrice)
    ensures ValidAsset(a) && ValidUpdateAsset(u) ==> ValidAsset(r)
  {
    a.(symbol := u.symbol.GetOr(a.symbol),
       name := u.name.GetOr(a.name),
       currentPrice := u.currentPrice.GetOr(a.currentPrice),
       updatedAt := now)
  }

  /** The signal row after an update request (update_signal.ts:31-52). A
      provided description replaces the old one even when it is null. */
  function MergeSignal(s: Signal, u: UpdateSignalInput, now: Time): (r: Signal)
    ensures r.id == s.id && r.createdAt == s.createdAt && r.updatedAt == now
    ensures r.assetId == (if u.assetId.Some? then u.assetId.value else s.assetId)
    ensures r.signalType == (if u.signalType.Some? then u.signalType.value else s.signalType)
    ensures r.targetPrice == (if u.targetPrice.Some? then u.targetPrice.value else s.targetPrice)
    ensures r.quantity == (if u.quantity.Some? then u.quantity.value else s.quantity)
    ensures r.description == (if u.description.Some? then u.description.value else s.description)
    ensures r.isActive == (if u.isActive.Some? then u.isActive.value else s.isActive)
    ensures ValidSignal(s) && ValidUpdateSignal(u) ==> ValidSignal(r)
  {
    s.(assetId := u.assetId.GetOr(s.assetId),
       signalType := u.signalType.GetOr(s.signalType),
       targetPrice := u.targetPrice.GetOr(s.targetPrice),
       quantity := u.quantity.GetOr(s.quantity),
       description := u.description.GetOr(s.description),
       isActive := u.isActive.GetOr(s.isActive),
       updatedAt := now)
  }

  /** The copy-trader row after an update request
      (update_copy_trader.ts:9-24). A counter given as 0 is provided. */
  function MergeCopyTrader(c: CopyTrader, u: UpdateCopyTraderInput, now: Time): (r: CopyTrader)
    ensures r.id == c.id && r.createdAt == c.createdAt && r.updatedAt == now
    ensures r.name == (if u.name.Some? then u.name.value else c.name)
    ensures r.tradesWon == (if u.tradesWon.Some? then u.tradesWon.value else c.tradesWon)
    ensures r.tradesLost == (if u.tradesLost.Some? then u.tradesLost.value else c.tradesLost)
    ensures r.followers == (if u.followers.Some? then u.followers.value else c.followers)
    ensures ValidCopyTraderRow(c) && ValidUpdateCopyTrader(u) ==> ValidCopyTraderRow(r)
  {
    c.(name := u.name.GetOr(c.name),
       tradesWon := u.tradesWon.GetOr(c.tradesWon),
       tradesLost := u.tradesLost.GetOr(c.tradesLost),
       followers := u.followers.GetOr(c.followers),
       updatedAt := now)
  }

  /** Replaying an asset update changes nothing but the timestamp. */
  lemma MergeAssetIdempotent(a: Asset, u: UpdateAssetInput, t1: Time, t2: Time)
    ensures MergeAsset(MergeAsset(a, u, t1), u, t2) == MergeAsset(a, u, t2)
  {
  }

  /** An update that provides no field only refreshes `updatedAt`. */
  lemma EmptyAssetUpdateTouchesOnlyTimestamp(a: Asset, id: nat, now: Time)
    ensures MergeAsset(a, UpdateAssetInput(id, None, None, None), now) == a.(updatedAt := now)
  {
  }

  /** The signals left after deleting every signal of `assetId`
      (delete_asset.ts:19-21). */
  function SignalsWithoutAsset(signals: map<nat, Signal>, assetId: nat): (r: map<nat, Signal>)
    ensures forall k :: k in r <==> k in signals && signals[k].assetId != assetId
    ensures forall k :: k in r ==> r[k] == signals[k]
  {
    map k | k in signals && signals[k].assetId != assetId :: signals[k]
  }

  /** The simulated trades left after deleting every trade of `assetId`
      (delete_asset.ts:24-26); the same filter as SignalsWithoutAsset,
      over the other table that refers to assets. */
  function TradesWithoutAsset(trades: map<nat, SimulatedTrade>, assetId: nat): (r: map<nat, SimulatedTrade>)
    ensures forall k :: k in r <==> k in trades && trades[k].assetId != assetId
    ensures forall k :: k in r ==> r[k] == trades[k]
  {
    map k | k in trades && trades[k].assetId != assetId :: trades[k]
  }
}

=== FILE: common.dfy ===
/** Vocabulary shared by every handler of the trading back end: optional
    values, the errors a handler reports, and the failure-carrying result. */
module Common {

  /** A timestamp. Handlers receive the current time as a parameter; the
      model never compares two timestamps. */
  type Time = nat

  datatype Option<+T> = None | Some(value: T) {
    function GetOr(default: T): T {
      match this
      case Some(v) => v
      case None => default
    }
  }

  /** Point lookup in a table: the row stored under `k`, if any. */
  function Get<K, V>(m: map<K, V>, k: K): (r: Option<V>)
    ensures r.Some? <==> k in m
    ensures r.Some? ==> r.value == m[k]
  {
    if k in m then Some(m[k]) else None
  }

  /** Direction of a trade or a signal. The ledger tables spell it
      'buy'/'sell', the catalogue tables 'BUY'/'SELL'; both are two-valued. */
  datatype Side = Buy | Sell

  /** The tables a lookup can miss in. */
  datatype Table = Users | Trades | Traders | Subscriptions | Signals | Assets | CopyTraders

  /** Every error a handler throws, one constructor per distinct message. */
  datatype Error =
    | NotFound(table: Table)
      // "... not found" / "does not exist"
    | InsufficientBalance
      // a buy or a subscription costs more than the virtual balance
    | PriceBelowSubscriptionPrice
      // price_paid is less than the trader's subscription price
    | AlreadyClosedOrCancelled
      // closing a trade that is closed or cancelled
    | AlreadyCancelled
      // cancelling a cancelled subscription
    | SignalInactive
    | TraderMismatch
      // the signal belongs to another trader
    | NoActiveSubscription
    | TraderProfileExists
      // the user already has a trader profile
    | DuplicateKey
      // a unique constraint of the store rejected the write

  datatype Result<+T> = Ok(value: T) | Err(error: Error)

  /** JavaScript's `s || null` on an optional string: an absent value and
      the empty string both become null. */
  function OrNull(s: Option<string>): (r: Option<string>)
    ensures r.None? <==> (s.None? || s == Some(""))
    ensures r.Some? ==> r == s && |r.value| > 0
  {
    if s.None? || s.value == "" then None else s
  }
}

=== FILE: invariants.dfy ===
/** The integrity constraints the relational store keeps across all its
    tables, and one lemma per kind of handler write showing that the write
    keeps them. Each lemma is assembled from the per-table lemmas of
    `Tables`: the tables a write does not touch keep their constraints as
    they are. */
module Invariants {
  import opened Common
  import opened Schema
  import opened Ledger
  import opened Catalogue
  import opened Tables

  /** The integrity constraints of the whole store. */
  ghost predicate Consistent(s: Snapshot) {
    && UsersOk(s.users)
    && TradesOk(s.trades, s.users.Keys)
    && TradersOk(s.traders, s.users.Keys)
    && SubscriptionsOk(s.subscriptions, s.users.Keys, s.traders.Keys)
    && WalletsOk(s.wallets, s.users.Keys)
    && TransactionsOk(s.transactions, s.users.Keys)
    && TraderSignalsOk(s.traderSignals)
    && CopyTradesOk(s.copyTrades, s.users.Keys, s.trades.Keys)
    && AssetsOk(s.assets)
    && SignalsOk(s.signals, s.assets.Keys)
    && SimulatedTradesOk(s.simulatedTrades, s.assets.Keys)
    && CopyTradersOk(s.copyTraders)
    && IdsBelow(s, s.nextId)
  }

  /** The empty store is consistent. */
  lemma EmptyConsistent(n: nat)
    ensures Consistent(Snapshot(map[], map[], map[], map[], map[], [], map[], map[],
                                map[], map[], map[], map[], n))
  {
  }

  /** The next id, and every id above it, is a key of no table and the id
      of no wallet and no transaction: the row an insert writes at the next
      id, and the second row it writes at the id after it, are both new. */
  lemma FreshFrom(s: Snapshot, n: nat)
    requires Consistent(s) && s.nextId <= n
    ensures n !in s.users && n !in s.trades && n !in s.traders && n !in s.traderSignals
    ensures n !in s.subscriptions && n !in s.copyTrades && n !in s.assets
    ensures n !in s.signals && n !in s.simulatedTrades && n !in s.copyTraders
    ensures forall k :: k in s.wallets ==> s.wallets[k].id != n
    ensures forall i :: 0 <= i < |s.transactions| ==> s.transactions[i].id != n
  {
    IdsBelowMono(s, s.nextId, n);
    IdsBelowFresh(s, n);
  }

  // ---------------------------------------------------------------------
  // Writes to one table
  // ---------------------------------------------------------------------

  /** Raising the id counter keeps every id below it. */
  lemma BumpKeeps(s: Snapshot, n: nat)
    requires Consistent(s) && s.nextId <= n
    ensures Consistent(s.(nextId := n))
  {
    IdsBelowMono(s, s.nextId, n);
  }

  /** Creating a user with the next id and an unused e-mail and username. */
  lemma InsertUserKeeps(s: Snapshot, u: User, s': Snapshot)
    requires u.id == s.nextId
    requires forall k :: k in s.users ==> s.users[k].email != u.email && s.users[k].username != u.username
    requires s' == s.(users := s.users[u.id := u], nextId := s.nextId + 1)
    ensures Consistent(s) ==> Consistent(s')
  {
    if Consistent(s) {
      var n := s.nextId;
      var ids, ids' := s.users.Keys, s.users[u.id := u].Keys;
      IdsBelowFresh(s, n);
      UsersInsert(s.users, u);
      TradesWiden(s.trades, ids, ids');
      TradersWiden(s.traders, ids, ids');
      SubscriptionsWiden(s.subscriptions, ids, s.traders.Keys, ids', s.traders.Keys);
      WalletsWiden(s.wallets, ids, ids');
      TransactionsWiden(s.transactions, ids, ids');
      CopyTradesWiden(s.copyTrades, ids, s.trades.Keys, ids', s.trades.Keys);
      IdsBelowMono(s, n, n + 1);
      KeysBelowInsert(s.users, n, u);
    }
  }

  /** Rewriting the user stored under `id`, keeping its id, e-mail and
      username. */
  lemma ReplaceUserKeeps(s: Snapshot, id: nat, u: User, s': Snapshot)
    requires id in s.users && u.id == s.users[id].id
    requires u.email == s.users[id].email && u.username == s.users[id].username
    requires s' == s.(users := s.users[id := u])
    ensures Consistent(s) ==> Consistent(s')
  {
    if Consistent(s) {
      UsersReplace(s.users, u);
      KeysBelowSub(s.users, s.users[u.id := u], s.nextId);
    }
  }

  /** Creating the only trader profile of an existing user. */
  lemma InsertTraderKeeps(s: Snapshot, t: Trader, s': Snapshot)
    requires t.id == s.nextId && t.userId in s.users
    requires forall k :: k in s.traders ==> s.traders[k].userId != t.userId
    requires s' == s.(traders := s.traders[t.id := t], nextId := s.nextId + 1)
    ensures Consistent(s) ==> Consistent(s')
  {
    if Consistent(s) {
      var n := s.nextId;
      IdsBelowFresh(s, n);
      TradersInsert(s.traders, s.users.Keys, t);
      SubscriptionsWiden(s.subscriptions, s.users.Keys, s.traders.Keys,
                         s.users.Keys, s.traders[t.id := t].Keys);
      IdsBelowMono(s, n, n + 1);
      KeysBelowInsert(s.traders, n, t);
    }
  }

  /** Appending a transaction of an existing user with the next id. */
  lemma AppendTransactionKeeps(s: Snapshot, tx: Transaction, s': Snapshot)
    requires tx.id == s.nextId && tx.userId in s.users
    requires s' == s.(transactions := s.transactions + [tx], nextId := s.nextId + 1)
    ensures Consistent(s) ==> Consistent(s')
  {
    if Consistent(s) {
      var n := s.nextId;
      TransactionsAppend(s.transactions, s.users.Keys, tx);
      IdsBelowMono(s, n, n + 1);
      TransactionIdsAppend(s.transactions, n + 1, tx);
    }
  }

  /** Inserting a well-formed trade of an existing user with the next id. */
  lemma InsertTradeKeeps(s: Snapshot, t: Trade, s': Snapshot)
    requires t.id == s.nextId && t.userId in s.users && TradeWellFormed(t)
    requires s' == s.(trades := s.trades[t.id := t], nextId := s.nextId + 1)
    ensures Consistent(s) ==> Consistent(s')
  {
    if Consistent(s) {
      var n := s.nextId;
      TradesPut(s.trades, s.users.Keys, t);
      CopyTradesWiden(s.copyTrades, s.users.Keys, s.trades.Keys, s.users.Keys, s.trades[t.id := t].Keys);
      IdsBelowMono(s, n, n + 1);
      KeysBelowInsert(s.trades, n, t);
    }
  }

  /** Rewriting the trade stored under `id`, keeping its id and owner. */
  lemma ReplaceTradeKeeps(s: Snapshot, id: nat, t: Trade, s': Snapshot)
    requires id in s.trades && t.id == s.trades[id].id && t.userId == s.trades[id].userId
    requires TradeWellFormed(t)
    requires s' == s.(trades := s.trades[id := t])
    ensures Consistent(s) ==> Consistent(s')
  {
    if Consistent(s) {
      var trades' := s.trades[t.id := t];
      assert trades'.Keys == s.trades.Keys;
      TradesPut(s.trades, s.users.Keys, t);
      KeysBelowSub(s.trades, trades', s.nextId);
    }
  }

  /** Subscribing an existing user to an existing trader with the next id. */
  lemma InsertSubscriptionKeeps(s: Snapshot, sub: Subscription, s': Snapshot)
    requires sub.id == s.nextId && sub.subscriberId in s.users && sub.traderId in s.traders
    requires s' == s.(subscriptions := s.subscriptions[sub.id := sub], nextId := s.nextId + 1)
    ensures Consistent(s) ==> Consistent(s')
  {
    if Consistent(s) {
      var n := s.nextId;
      SubscriptionsPut(s.subscriptions, s.users.Keys, s.traders.Keys, sub);
      IdsBelowMono(s, n, n + 1);
      KeysBelowInsert(s.subscriptions, n, sub);
    }
  }

  /** Rewriting the subscription stored under `id`, keeping its id,
      subscriber and trader. */
  lemma ReplaceSubscriptionKeeps(s: Snapshot, id: nat, sub: Subscription, s': Snapshot)
    requires id in s.subscriptions && sub.id == s.subscriptions[id].id
    requires sub.subscriberId == s.subscriptions[id].subscriberId && sub.traderId == s.subscriptions[id].traderId
    requires s' == s.(subscriptions := s.subscriptions[id := sub])
    ensures Consistent(s) ==> Consistent(s')
  {
    if Consistent(s) {
      SubscriptionsPut(s.subscriptions, s.users.Keys, s.traders.Keys, sub);
      KeysBelowSub(s.subscriptions, s.subscriptions[sub.id := sub], s.nextId);
    }
  }

  /** Storing a wallet of an existing user under its (user, currency)
      pair, with an id already issued. */
  lemma PutWalletKeeps(s: Snapshot, w: Wallet, s': Snapshot)
    requires w.userId in s.users && w.id < s.nextId
    requires s' == s.(wallets := s.wallets[(w.userId, w.currency) := w])
    ensures Consistent(s) ==> Consistent(s')
  {
    if Consistent(s) {
      WalletsPut(s.wallets, s.users.Keys, w);
      WalletIdsPut(s.wallets, s.nextId, (w.userId, w.currency), w);
    }
  }

  /** Linking a copied trade, which must exist, with the next id. */
  lemma InsertCopyTradeKeeps(s: Snapshot, c: CopyTrade, s': Snapshot)
    requires c.id == s.nextId && c.subscriberId in s.users && c.copiedTradeId in s.trades
    requires s' == s.(copyTrades := s.copyTrades[c.id := c], nextId := s.nextId + 1)
    ensures Consistent(s) ==> Consistent(s')
  {
    if Consistent(s) {
      var n := s.nextId;
      CopyTradesPut(s.copyTrades, s.users.Keys, s.trades.Keys, c);
      IdsBelowMono(s, n, n + 1);
      KeysBelowInsert(s.copyTrades, n, c);
    }
  }


  /** Recording a simulated trade of an existing asset with the next id. */
  lemma InsertSimulatedTradeKeeps(s: Snapshot, t: SimulatedTrade, s': Snapshot)
    requires t.id == s.nextId && t.assetId in s.assets
    requires s' == s.(simulatedTrades := s.simulatedTrades[t.id := t], nextId := s.nextId + 1)
    ensures Consistent(s) ==> Consistent(s')
  {
    if Consistent(s) {
      var n := s.nextId;
      SimulatedTradesPut(s.simulatedTrades, s.assets.Keys, t);
      IdsBelowMono(s, n, n + 1);
      KeysBelowInsert(s.simulatedTrades, n, t);
    }
  }

  /** Creating a valid signal of an existing asset with the next id. */
  lemma InsertSignalKeeps(s: Snapshot, sig: Signal, s': Snapshot)
    requires sig.id == s.nextId && sig.assetId in s.assets && ValidSignal(sig)
    requires s' == s.(signals := s.signals[sig.id := sig], nextId := s.nextId + 1)
    ensures Consistent(s) ==> Consistent(s')
  {
    if Consistent(s) {
      var n := s.nextId;
      SignalsPut(s.signals, s.assets.Keys, sig);
      IdsBelowMono(s, n, n + 1);
      KeysBelowInsert(s.signals, n, sig);
    }
  }

  /** Rewriting the signal stored under `id` with a row of an existing
      asset that is valid whenever the old row was. */
  lemma ReplaceSignalKeeps(s: Snapshot, id: nat, sig: Signal, s': Snapshot)
    requires id in s.signals && sig.id == s.signals[id].id
    requires sig.assetId == s.signals[id].assetId || sig.assetId in s.assets
    requires ValidSignal(s.signals[id]) ==> ValidSignal(sig)
    requires s' == s.(signals := s.signals[id := sig])
    ensures Consistent(s) ==> Consistent(s')
  {
    if Consistent(s) {
      SignalsPut(s.signals, s.assets.Keys, sig);
      KeysBelowSub(s.signals, s.signals[sig.id := sig], s.nextId);
    }
  }

  lemma RemoveSignalKeeps(s: Snapshot, id: nat, s': Snapshot)
    requires s' == s.(signals := s.signals - {id})
    ensures Consistent(s) ==> Consistent(s')
  {
    if Consistent(s) {
      SignalsRemove(s.signals, s.assets.Keys, id);
      KeysBelowSub(s.signals, s.signals - {id}, s.nextId);
    }
  }

  /** Rewriting the asset stored under `id` with a row that is valid
      whenever the old row was and whose symbol no other asset has. */
  lemma ReplaceAssetKeeps(s: Snapshot, id: nat, a: Asset, s': Snapshot)
    requires id in s.assets && a.id == s.assets[id].id
    requires ValidAsset(s.assets[id]) ==> ValidAsset(a)
    requires forall k :: k in s.assets && k != id ==> s.assets[k].symbol != a.symbol
    requires s' == s.(assets := s.assets[id := a])
    ensures Consistent(s) ==> Consistent(s')
  {
    if Consistent(s) {
      AssetsReplace(s.assets, a);
      KeysBelowSub(s.assets, s.assets[a.id := a], s.nextId);
    }
  }

  /** Deleting an asset together with its signals and simulated trades
      leaves no dangling asset reference. */
  lemma DeleteAssetKeeps(s: Snapshot, id: nat, s': Snapshot)
    requires s' == s.(signals := SignalsWithoutAsset(s.signals, id),
                           simulatedTrades := TradesWithoutAsset(s.simulatedTrades, id),
                           assets := s.assets - {id})
    ensures Consistent(s) ==> Consistent(s')
  {
    if Consistent(s) {
      var n := s.nextId;
      assert (s.assets - {id}).Keys == s.assets.Keys - {id};
      AssetsRemove(s.assets, id);
      SignalsWithoutAssetOk(s.signals, s.assets.Keys, id);
      TradesWithoutAssetOk(s.simulatedTrades, s.assets.Keys, id);
      KeysBelowSub(s.assets, s.assets - {id}, n);
      KeysBelowSub(s.signals, SignalsWithoutAsset(s.signals, id), n);
      KeysBelowSub(s.simulatedTrades, TradesWithoutAsset(s.simulatedTrades, id), n);
    }
  }

  /** Rewriting the copy trader stored under `id` with a row that is
      valid whenever the old row was. */
  lemma ReplaceCopyTraderKeeps(s: Snapshot, id: nat, c: CopyTrader, s': Snapshot)
    requires id in s.copyTraders && c.id == s.copyTraders[id].id
    requires ValidCopyTraderRow(s.copyTraders[id]) ==> ValidCopyTraderRow(c)
    requires s' == s.(copyTraders := s.copyTraders[id := c])
    ensures Consistent(s) ==> Consistent(s')
  {
    if Consistent(s) {
      CopyTradersPut(s.copyTraders, c);
      KeysBelowSub(s.copyTraders, s.copyTraders[c.id := c], s.nextId);
    }
  }

  lemma RemoveCopyTraderKeeps(s: Snapshot, id: nat, s': Snapshot)
    requires s' == s.(copyTraders := s.copyTraders - {id})
    ensures Consistent(s) ==> Consistent(s')
  {
    if Consistent(s) {
      CopyTradersRemove(s.copyTraders, id);
      KeysBelowSub(s.copyTraders, s.copyTraders - {id}, s.nextId);
    }
  }

  // ---------------------------------------------------------------------
  // Handlers that write several tables
  // ---------------------------------------------------------------------

  /** create_user: the user, then its first wallet. */
  lemma CreateUserKeeps(s: Snapshot, u: User, w: Wallet, s': Snapshot)
    requires u.id == s.nextId
    requires forall k :: k in s.users ==> s.users[k].email != u.email && s.users[k].username != u.username
    requires w.id == s.nextId + 1 && w.userId == u.id
    requires s' == s.(users := s.users[u.id := u], wallets := s.wallets[(u.id, w.currency) := w],
                      nextId := s.nextId + 2)
    ensures Consistent(s) ==> Consistent(s')
  {
    if Consistent(s) {
      var s1 := s.(users := s.users[u.id := u], nextId := s.nextId + 1);
      InsertUserKeeps(s, u, s1);
      var s2 := s1.(nextId := s.nextId + 2);
      BumpKeeps(s1, s2.nextId);
      PutWalletKeeps(s2, w, s');
    }
  }

  /** create_trade and close_trade: a trade write, then the balance of the
      owner stored under `uid`. */
  lemma TradeAndOwnerKeeps(s: Snapshot, tid: nat, t: Trade, uid: nat, u: User, inserted: bool, s': Snapshot)
    requires TradeWellFormed(t)
    requires inserted ==> tid == t.id == s.nextId && t.userId in s.users
    requires !inserted ==> tid in s.trades && t.id == s.trades[tid].id && t.userId == s.trades[tid].userId
    requires uid in s.users && u.id == s.users[uid].id
    requires u.email == s.users[uid].email && u.username == s.users[uid].username
    requires s' == s.(trades := s.trades[tid := t], users := s.users[uid := u],
                      nextId := if inserted then s.nextId + 1 else s.nextId)
    ensures Consistent(s) ==> Consistent(s')
  {
    var s1 := s.(trades := s.trades[tid := t], nextId := if inserted then s.nextId + 1 else s.nextId);
    if inserted {
      InsertTradeKeeps(s, t, s1);
    } else {
      ReplaceTradeKeeps(s, tid, t, s1);
    }
    ReplaceUserKeeps(s1, uid, u, s');
  }

  /** create_subscription: the subscription, then the balance of the
      subscriber stored under `uid`. */
  lemma SubscribeKeeps(s: Snapshot, sub: Subscription, uid: nat, u: User, s': Snapshot)
    requires sub.id == s.nextId && sub.subscriberId in s.users && sub.traderId in s.traders
    requires uid in s.users && u.id == s.users[uid].id
    requires u.email == s.users[uid].email && u.username == s.users[uid].username
    requires s' == s.(subscriptions := s.subscriptions[sub.id := sub], users := s.users[uid := u],
                      nextId := s.nextId + 1)
    ensures Consistent(s) ==> Consistent(s')
  {
    var s1 := s.(subscriptions := s.subscriptions[sub.id := sub], nextId := s.nextId + 1);
    InsertSubscriptionKeeps(s, sub, s1);
    ReplaceUserKeeps(s1, uid, u, s');
  }

  /** fund_wallet: the wallet under `key` (updated in place, or created
      with the next id when missing), then the funding transaction. */
  lemma FundKeeps(s: Snapshot, key: (nat, string), w: Wallet, tx: Transaction, created: bool, s': Snapshot)
    requires key.0 in s.users && tx.userId == key.0
    requires created ==> w.id == s.nextId && w.userId == key.0 && w.currency == key.1
    requires !created ==> key in s.wallets && w.id == s.wallets[key].id
    requires !created ==> w.userId == s.wallets[key].userId && w.currency == s.wallets[key].currency
    requires tx.id == (if created then s.nextId + 1 else s.nextId)
    requires s' == s.(wallets := s.wallets[key := w], transactions := s.transactions + [tx], nextId := tx.id + 1)
    ensures Consistent(s) ==> Consistent(s')
  {
    if Consistent(s) {
      assert w.userId == key.0 && w.currency == key.1 && w.id < tx.id;
      var s1 := s.(nextId := tx.id);
      BumpKeeps(s, tx.id);
      var s2 := s1.(wallets := s.wallets[key := w]);
      PutWalletKeeps(s1, w, s2);
      AppendTransactionKeeps(s2, tx, s');
    }
  }

  /** copy_trade: the copied trade, then the link to it. */
  lemma CopyTradeKeeps(s: Snapshot, t: Trade, c: CopyTrade, s': Snapshot)
    requires t.id == s.nextId && t.userId in s.users && TradeWellFormed(t)
    requires c.id == s.nextId + 1 && c.subscriberId in s.users && c.copiedTradeId == t.id
    requires s' == s.(trades := s.trades[t.id := t], copyTrades := s.copyTrades[c.id := c],
                      nextId := s.nextId + 2)
    ensures Consistent(s) ==> Consistent(s')
  {
    var s1 := s.(trades := s.trades[t.id := t], nextId := s.nextId + 1);
    InsertTradeKeeps(s, t, s1);
    InsertCopyTradeKeeps(s1, c, s');
  }
}

=== FILE: ledger.dfy ===
/** The ledger: users and their virtual balances, trades, trader profiles,
    subscriptions, per-currency wallets, the transaction log, traders'
    signals and the copy-trade links. This module holds the rows, the
    requests, and the pure decisions every ledger handler makes before it
    writes: which guard fails first, and what the balance delta is. */
module Ledger {
  import opened Common

  // ---------------------------------------------------------------------
  // Lifecycle states
  // ---------------------------------------------------------------------

  datatype TradeStatus = Pending | Executed | Closed | Cancelled

  datatype SubscriptionStatus = Active | Expired | Cancelled

  datatype TransactionType = Deposit | Withdrawal | TradeTx | SubscriptionTx | FundWallet

  datatype TransactionStatus = Pending | Completed | Failed | Cancelled

  // ---------------------------------------------------------------------
  // Rows
  // ---------------------------------------------------------------------

  datatype User = User(
    id: nat, email: string, username: string, firstName: string, lastName: string,
    phone: Option<string>, country: Option<string>, avatarUrl: Option<string>,
    isVerified: bool, virtualBalance: real, createdAt: Time, updatedAt: Time)

  datatype Trade = Trade(
    id: nat, userId: nat, symbol: string, assetType: string, tradeType: Side,
    quantity: real, entryPrice: real, exitPrice: Option<real>, status: TradeStatus,
    profitLoss: Option<real>, createdAt: Time, closedAt: Option<Time>)

  datatype Trader = Trader(
    id: nat, userId: nat, displayName: string, bio: Option<string>,
    subscriptionPrice: real, totalFollowers: int, profitPercentage: real,
    winRate: real, totalTrades: int, isActive: bool, createdAt: Time)

  datatype Subscription = Subscription(
    id: nat, subscriberId: nat, traderId: nat, status: SubscriptionStatus,
    pricePaid: real, startDate: Time, endDate: Option<Time>, createdAt: Time)

  datatype Wallet = Wallet(
    id: nat, userId: nat, currency: string, balance: real,
    availableBalance: real, lockedBalance: real, createdAt: Time, updatedAt: Time)

  /** A transaction's description: free text, or the funding note
      "Wallet funded with <amount> <currency>" kept as its two values. */
  datatype Note = Text(text: string) | FundingNote(amount: real, currency: string)

  datatype Transaction = Transaction(
    id: nat, userId: nat, txType: TransactionType, amount: real, currency: string,
    status: TransactionStatus, description: Option<Note>, referenceId: Option<string>,
    createdAt: Time, processedAt: Option<Time>)

  /** The description a created transaction stores: the request's text,
      or null when it is absent or empty (create_transaction.ts:25). */
  function DescriptionNote(s: Option<string>): (n: Option<Note>)
    ensures n.None? <==> (s.None? || s == Some(""))
    ensures n.Some? ==> n.value == Text(s.value)
  {
    match OrNull(s)
    case None => None
    case Some(text) => Some(Text(text))
  }

  /** A signal published by a trader (the copy relay's signal shape). */
  datatype TraderSignal = TraderSignal(
    id: nat, traderId: nat, symbol: string, assetType: string, signalType: Side,
    entryPrice: real, isActive: bool)

  datatype CopyTrade = CopyTrade(
    id: nat, subscriberId: nat, traderId: nat, signalId: nat, copiedTradeId: nat,
    status: TradeStatus, executedAt: Option<Time>, createdAt: Time)

  // ---------------------------------------------------------------------
  // Requests
  // ---------------------------------------------------------------------

  datatype CreateUserInput = CreateUserInput(
    email: string, username: string, firstName: string, lastName: string,
    phone: Option<string>, country: Option<string>)

  datatype UpdateUserInput = UpdateUserInput(
    id: nat, firstName: Option<string>, lastName: Option<string>,
    phone: Option<Option<string>>, country: Option<Option<string>>,
    avatarUrl: Option<Option<string>>)

  datatype CreateTraderInput = CreateTraderInput(
    userId: nat, displayName: string, bio: Option<string>, subscriptionPrice: real)

  datatype CreateTransactionInput = CreateTransactionInput(
    userId: nat, txType: TransactionType, amount: real, currency: string,
    description: Option<string>, referenceId: Option<string>)

  datatype CreateTradeInput = CreateTradeInput(
    userId: nat, symbol: string, assetType: string, tradeType: Side,
    quantity: real, entryPrice: real)

  datatype CloseTradeInput = CloseTradeInput(id: nat, exitPrice: real)

  datatype CreateSubscriptionInput = CreateSubscriptionInput(
    subscriberId: nat, traderId: nat, pricePaid: real)

  datatype FundWalletInput = FundWalletInput(
    userId: nat, currency: string, amount: real, externalReference: Option<string>)

  datatype CopyTradeInput = CopyTradeInput(subscriberId: nat, traderId: nat, signalId: nat)

  // ---------------------------------------------------------------------
  // Constants
  // ---------------------------------------------------------------------

  /** Starting virtual balance of a new user, and of its USD wallet. */
  const InitialBalance: real := 10000.0

  const DefaultCurrency: string := "USD"

  /** Quantity of every copied trade. */
  const CopiedQuantity: real := 1.0

  // ---------------------------------------------------------------------
  // Trades
  // ---------------------------------------------------------------------

  /** The exit fields of a trade are set together, by closing it, and only
      a closed trade has them. */
  predicate TradeWellFormed(t: Trade) {
    if t.status == TradeStatus.Closed then
      t.exitPrice.Some? && t.profitLoss.Some? && t.closedAt.Some?
    else
      t.exitPrice.None? && t.profitLoss.None? && t.closedAt.None?
  }

  predicate IsTerminal(s: TradeStatus) {
    s == TradeStatus.Closed || s == TradeStatus.Cancelled
  }

  /** Change to the owner's balance when a trade is opened
      (create_trade.ts:42-48): a buy pays the trade value, a sell
      receives it. */
  function OpeningDelta(side: Side, quantity: real, price: real): (d: real)
    ensures side == Buy ==> d + quantity * price == 0.0
    ensures side == Sell ==> d == quantity * price
  {
    if side == Buy then -(quantity * price) else quantity * price
  }

  /** Profit or loss of closing a trade (close_trade.ts:31-37): a buy
      gains when the price rises, a sell when it falls. */
  function ProfitLoss(side: Side, entry: real, exit: real, quantity: real): (pl: real)
    ensures quantity > 0.0 && side == Buy ==> (pl > 0.0 <==> exit > entry) && (pl < 0.0 <==> exit < entry)
    ensures quantity > 0.0 && side == Sell ==> (pl > 0.0 <==> exit < entry) && (pl < 0.0 <==> exit > entry)
    ensures exit == entry ==> pl == 0.0
  {
    var move := if side == Buy then exit - entry else entry - exit;
    ScaledSign(move, quantity);
    move * quantity
  }

  /** Scaling by a positive quantity keeps the sign of a price move. */
  lemma ScaledSign(move: real, quantity: real)
    ensures quantity > 0.0 ==> (move * quantity > 0.0 <==> move > 0.0) && (move * quantity < 0.0 <==> move < 0.0)
    ensures move == 0.0 ==> move * quantity == 0.0
  {
    if quantity > 0.0 {
      if move > 0.0 {
        assert move * quantity > 0.0;
      } else if move < 0.0 {
        assert (-move) * quantity > 0.0;
      }
    }
  }

  /** The first failing check of create_trade (create_trade.ts:14-25), if
      any. Only a buy is checked against the balance, and a balance equal
      to the trade value is enough. */
  function OpenTradeCheck(owner: Option<User>, side: Side, cost: real): (e: Option<Error>)
    ensures e.None? <==> owner.Some? && (side.Sell? || owner.value.virtualBalance >= cost)
    ensures owner.None? ==> e == Some(NotFound(Users))
    ensures owner.Some? && e.Some? ==> e == Some(InsufficientBalance)
  {
    if owner.None? then Some(NotFound(Users))
    else if side == Buy && owner.value.virtualBalance < cost then Some(InsufficientBalance)
    else None
  }

  /** The first failing check of close_trade (close_trade.ts:14-23):
      closed and cancelled trades are rejected, pending and executed ones
      may be closed. */
  function CloseTradeCheck(t: Option<Trade>): (e: Option<Error>)
    ensures e.None? <==> t.Some? && !IsTerminal(t.value.status)
    ensures t.None? ==> e == Some(NotFound(Trades))
    ensures t.Some? && e.Some? ==> e == Some(AlreadyClosedOrCancelled)
  {
    if t.None? then Some(NotFound(Trades))
    else if IsTerminal(t.value.status) then Some(AlreadyClosedOrCancelled)
    else None
  }

  /** A trade after closing at `exitPrice` (close_trade.ts:40-49). */
  function ClosedTrade(t: Trade, exitPrice: real, now: Time): (r: Trade)
    ensures r.status == TradeStatus.Closed && TradeWellFormed(r)
    ensures r.exitPrice == Some(exitPrice) && r.closedAt == Some(now)
    ensures r.profitLoss == Some(ProfitLoss(t.tradeType, t.entryPrice, exitPrice, t.quantity))
    ensures r.(exitPrice := t.exitPrice, profitLoss := t.profitLoss, status := t.status, closedAt := t.closedAt) == t
  {
    t.(exitPrice := Some(exitPrice),
       profitLoss := Some(ProfitLoss(t.tradeType, t.entryPrice, exitPrice, t.quantity)),
       status := TradeStatus.Closed,
       closedAt := Some(now))
  }

  /** A closed trade cannot be closed again, whatever the exit price and
      whatever state the trade was in: the profit or loss is applied at
      most once. */
  lemma ClosedTradeIsTerminal(t: Trade, exit1: real, now: Time)
    ensures CloseTradeCheck(Some(ClosedTrade(t, exit1, now))) == Some(AlreadyClosedOrCancelled)
  {
  }

  /** Opening a trade and closing it again: the owner's balance moves by
      the opening delta plus the profit or loss. Since the position's
      cost is not returned on closing, a buy closed at its entry price
      leaves the owner poorer by its value and a sell richer. */
  lemma OpenThenCloseNet(side: Side, quantity: real, entry: real, exit: real)
    ensures OpeningDelta(side, quantity, entry) + ProfitLoss(side, entry, exit, quantity)
            == (if side == Buy then quantity * exit - 2.0 * quantity * entry
                else 2.0 * quantity * entry - quantity * exit)
    ensures exit == entry ==>
      OpeningDelta(side, quantity, entry) + ProfitLoss(side, entry, exit, quantity) == OpeningDelta(side, quantity, entry)
  {
  }

  // ---------------------------------------------------------------------
  // Subscriptions
  // ---------------------------------------------------------------------

  /** The first failing check of create_subscription
      (create_subscription.ts:14-41): subscriber, trader, balance, price
      floor, in that order. */
  function SubscribeCheck(subscriber: Option<User>, trader: Option<Trader>, pricePaid: real): (e: Option<Error>)
    ensures e.None? <==>
      && subscriber.Some? && trader.Some?
      && subscriber.value.virtualBalance >= pricePaid
      && pricePaid >= trader.value.subscriptionPrice
    ensures subscriber.None? ==> e == Some(NotFound(Users))
    ensures subscriber.Some? && trader.None? ==> e == Some(NotFound(Traders))
    ensures subscriber.Some? && trader.Some? && subscriber.value.virtualBalance < pricePaid
            ==> e == Some(InsufficientBalance)
    ensures (subscriber.Some? && trader.Some? && subscriber.value.virtualBalance >= pricePaid &&
             pricePaid < trader.value.subscriptionPrice) ==> e == Some(PriceBelowSubscriptionPrice)
  {
    if subscriber.None? then Some(NotFound(Users))
    else if trader.None? then Some(NotFound(Traders))
    else if subscriber.value.virtualBalance < pricePaid then Some(InsufficientBalance)
    else if pricePaid < trader.value.subscriptionPrice then Some(PriceBelowSubscriptionPrice)
    else None
  }

  /** The first failing check of cancelSubscription
      (get_subscriptions.ts:53-59): only an already cancelled
      subscription is refused; an expired one may be cancelled. */
  function CancelCheck(s: Option<Subscription>): (e: Option<Error>)
    ensures e.None? <==> s.Some? && s.value.status != SubscriptionStatus.Cancelled
    ensures s.None? ==> e == Some(NotFound(Subscriptions))
    ensures s.Some? && e.Some? ==> e == Some(AlreadyCancelled)
  {
    if s.None? then Some(NotFound(Subscriptions))
    else if s.value.status == SubscriptionStatus.Cancelled then Some(AlreadyCancelled)
    else None
  }

  // ---------------------------------------------------------------------
  // Copy trading
  // ---------------------------------------------------------------------

  /** The first failing check of copy_trade (copy_trade.ts:14-51): the
      signal exists, is active and belongs to the trader; the subscriber
      exists and holds an active subscription to the trader. */
  function CopyCheck(signal: Option<TraderSignal>, traderId: nat, subscriberExists: bool,
                     subscribed: bool): (e: Option<Error>)
    ensures e.None? <==>
      signal.Some? && signal.value.isActive && signal.value.traderId == traderId
      && subscriberExists && subscribed
    ensures signal.None? ==> e == Some(NotFound(Signals))
    ensures signal.Some? && !signal.value.isActive ==> e == Some(SignalInactive)
    ensures signal.Some? && signal.value.isActive && signal.value.traderId != traderId
            ==> e == Some(TraderMismatch)
    ensures signal.Some? && signal.value.isActive && signal.value.traderId == traderId && !subscriberExists
            ==> e == Some(NotFound(Users))
    ensures (signal.Some? && signal.value.isActive && signal.value.traderId == traderId &&
             subscriberExists && !subscribed) ==> e == Some(NoActiveSubscription)
  {
    if signal.None? then Some(NotFound(Signals))
    else if !signal.value.isActive then Some(SignalInactive)
    else if signal.value.traderId != traderId then Some(TraderMismatch)
    else if !subscriberExists then Some(NotFound(Users))
    else if !subscribed then Some(NoActiveSubscription)
    else None
  }

  // ---------------------------------------------------------------------
  // Wallets
  // ---------------------------------------------------------------------

  /** Balance of a wallet that may not exist yet (then 0). */
  function BalanceOf(w: Option<Wallet>): real {
    if w.Some? then w.value.balance else 0.0
  }

  function AvailableOf(w: Option<Wallet>): real {
    if w.Some? then w.value.availableBalance else 0.0
  }

  function LockedOf(w: Option<Wallet>): real {
    if w.Some? then w.value.lockedBalance else 0.0
  }

  /** The wallet for (userId, currency) after funding it with `amount`
      (fund_wallet.ts:29-60): an existing wallet grows in balance and
      available balance and keeps its owner and currency, a missing one is
      created with id `newId` for `userId` and `currency`; the locked
      balance is never touched. */
  function FundedWallet(w: Option<Wallet>, newId: nat, userId: nat, currency: string,
                        amount: real, now: Time): (r: Wallet)
    ensures r.userId == (if w.Some? then w.value.userId else userId)
    ensures r.currency == (if w.Some? then w.value.currency else currency)
    ensures r.balance == BalanceOf(w) + amount
    ensures r.availableBalance == AvailableOf(w) + amount
    ensures r.lockedBalance == LockedOf(w)
    ensures r.id == (if w.Some? then w.value.id else newId)
    ensures r.updatedAt == now
    ensures r.createdAt == (if w.Some? then w.value.createdAt else now)
  {
    if w.Some? then
      w.value.(balance := w.value.balance + amount,
               availableBalance := w.value.availableBalance + amount,
               updatedAt := now)
    else
      Wallet(newId, userId, currency, amount, amount, 0.0, now, now)
  }

  /** The audit row a funding appends (fund_wallet.ts:63-74). */
  function FundingRecord(id: nat, input: FundWalletInput, now: Time): (t: Transaction)
    ensures t.txType == FundWallet && t.status == TransactionStatus.Completed
    ensures t.userId == input.userId && t.amount == input.amount && t.currency == input.currency
    ensures t.referenceId == OrNull(input.externalReference) && t.processedAt == Some(now)
  {
    Transaction(id, input.userId, FundWallet, input.amount, input.currency,
                TransactionStatus.Completed, Some(FundingNote(input.amount, input.currency)),
                OrNull(input.externalReference), now, Some(now))
  }

  function Sum(amounts: seq<real>): real {
    if amounts == [] then 0.0 else amounts[0] + Sum(amounts[1..])
  }

  /** Summing a sequence one more amount at the end adds that amount. */
  lemma {:induction false} SumAppend(amounts: seq<real>, x: real)
    ensures Sum(amounts + [x]) == Sum(amounts) + x
  {
    if amounts != [] {
      assert (amounts + [x])[1..] == amounts[1..] + [x];
      SumAppend(amounts[1..], x);
    }
  }

  // ---------------------------------------------------------------------
  // Users
  // ---------------------------------------------------------------------

  /** The user row after a profile update (update_user.ts:9-27): only the
      provided profile fields change; identity, balance and verification
      never do. */
  function MergeUser(u: User, i: UpdateUserInput, now: Time): (r: User)
    ensures r.firstName == (if i.firstName.Some? then i.firstName.value else u.firstName)
    ensures r.lastName == (if i.lastName.Some? then i.lastName.value else u.lastName)
    ensures r.phone == (if i.phone.Some? then i.phone.value else u.phone)
    ensures r.country == (if i.country.Some? then i.country.value else u.country)
    ensures r.avatarUrl == (if i.avatarUrl.Some? then i.avatarUrl.value else u.avatarUrl)
    ensures r.id == u.id && r.email == u.email && r.username == u.username
    ensures r.virtualBalance == u.virtualBalance && r.isVerified == u.isVerified
    ensures r.createdAt == u.createdAt && r.updatedAt == now
  {
    u.(firstName := i.firstName.GetOr(u.firstName),
       lastName := i.lastName.GetOr(u.lastName),
       phone := i.phone.GetOr(u.phone),
       country := i.country.GetOr(u.country),
       avatarUrl := i.avatarUrl.GetOr(u.avatarUrl),
       updatedAt := now)
  }
}

=== FILE: queries.dfy ===
/** The read-only filters of the ledger: a user's subscriptions, the
    active ones, the subscription test of the copy relay, and a user's
    copy-trade history. Results are keyed by row id; the order in which
    the store returns them is not modelled. */
module Queries {
  import opened Common
  import opened Ledger

  /** getUserSubscriptions (get_subscriptions.ts:6-16). */
  function UserSubscriptions(subs: map<nat, Subscription>, userId: nat): (r: map<nat, Subscription>)
    ensures forall k :: k in r <==> k in subs && subs[k].subscriberId == userId
    ensures forall k :: k in r ==> r[k] == subs[k]
  {
    map k | k in subs && subs[k].subscriberId == userId :: subs[k]
  }

  /** getActiveSubscriptions (get_subscriptions.ts:23-38). */
  function ActiveSubscriptions(subs: map<nat, Subscription>, userId: nat): (r: map<nat, Subscription>)
    ensures forall k :: k in r <==> k in subs && subs[k].subscriberId == userId
                                    && subs[k].status == SubscriptionStatus.Active
    ensures forall k :: k in r ==> r[k] == subs[k]
  {
    map k | k in subs && subs[k].subscriberId == userId
                      && subs[k].status == SubscriptionStatus.Active :: subs[k]
  }

  /** The active subscriptions are exactly the user's subscriptions whose
      status is active. */
  lemma ActiveIsFilteredUserSubscriptions(subs: map<nat, Subscription>, userId: nat)
    ensures ActiveSubscriptions(subs, userId)
         == map k | k in UserSubscriptions(subs, userId)
                    && UserSubscriptions(subs, userId)[k].status == SubscriptionStatus.Active
                    :: UserSubscriptions(subs, userId)[k]
  {
  }

  /** The copy relay's authorisation test (copy_trade.ts:38-51): some
      subscription of the subscriber to the trader is active. */
  predicate HasActiveSubscription(subs: map<nat, Subscription>, subscriberId: nat, traderId: nat) {
    exists k :: k in subs && subs[k].subscriberId == subscriberId && subs[k].traderId == traderId
                && subs[k].status == SubscriptionStatus.Active
  }

  /** The relay's test agrees with the active-subscription listing: the
      subscriber may copy the trader exactly when one of its active
      subscriptions is to that trader. */
  lemma HasActiveSubscriptionViaListing(subs: map<nat, Subscription>, subscriberId: nat, traderId: nat)
    ensures HasActiveSubscription(subs, subscriberId, traderId) <==>
      exists k :: k in ActiveSubscriptions(subs, subscriberId)
                  && ActiveSubscriptions(subs, subscriberId)[k].traderId == traderId
  {
    var active := ActiveSubscriptions(subs, subscriberId);
    if HasActiveSubscription(subs, subscriberId, traderId) {
      var k :| k in subs && subs[k].subscriberId == subscriberId && subs[k].traderId == traderId
               && subs[k].status == SubscriptionStatus.Active;
      assert k in active && active[k].traderId == traderId;
    }
  }

  /** getCopyTradeHistory (copy_trade.ts:97-114): fails for an unknown
      user, otherwise lists exactly the copy trades the user made. */
  function CopyTradeHistory(users: map<nat, User>, copyTrades: map<nat, CopyTrade>, userId: nat)
    : (r: Result<map<nat, CopyTrade>>)
    ensures r.Err? <==> userId !in users
    ensures r.Err? ==> r.error == NotFound(Users)
    ensures r.Ok? ==> forall k :: k in r.value <==> k in copyTrades && copyTrades[k].subscriberId == userId
    ensures r.Ok? ==> forall k :: k in r.value ==> r.value[k] == copyTrades[k]
  {
    if userId !in users then Err(NotFound(Users))
    else Ok(map k | k in copyTrades && copyTrades[k].subscriberId == userId :: copyTrades[k])
  }
}

=== FILE: schema.dfy ===
/** The catalogue records (assets, asset signals, simulated trades, copy
    traders) and the input schemas that validate requests about them,
    written as validity predicates. A handler's precondition is the schema
    its router applies to the request before calling it. */
module Schema {
  import opened Common

  // ---------------------------------------------------------------------
  // Catalogue rows
  // ---------------------------------------------------------------------

  datatype Asset = Asset(
    id: nat, symbol: string, name: string, currentPrice: real,
    createdAt: Time, updatedAt: Time)

  /** A signal about an asset (the catalogue's signal shape). */
  datatype Signal = Signal(
    id: nat, assetId: nat, signalType: Side, targetPrice: real, quantity: real,
    description: Option<string>, isActive: bool, createdAt: Time, updatedAt: Time)

  datatype SimulatedTrade = SimulatedTrade(
    id: nat, assetId: nat, tradeType: Side, quantity: real, price: real,
    executedAt: Time)

  datatype CopyTrader = CopyTrader(
    id: nat, name: string, tradesWon: int, tradesLost: int, followers: int,
    createdAt: Time, updatedAt: Time)

  // ---------------------------------------------------------------------
  // Requests. `Option` marks a field the request may leave out; for a
  // nullable field, `Some(None)` is an explicit null.
  // ---------------------------------------------------------------------

  datatype CreateAssetInput = CreateAssetInput(symbol: string, name: string, currentPrice: real)

  datatype UpdateAssetInput = UpdateAssetInput(
    id: nat, symbol: Option<string>, name: Option<string>, currentPrice: Option<real>)

  datatype CreateCopyTraderInput = CreateCopyTraderInput(
    name: string, tradesWon: int, tradesLost: int, followers: int)

  datatype UpdateCopyTraderInput = UpdateCopyTraderInput(
    id: nat, name: Option<string>, tradesWon: Option<int>, tradesLost: Option<int>,
    followers: Option<int>)

  /** `isActive` is optional in the request; the schema defaults it. */
  datatype CreateSignalInput = CreateSignalInput(
    assetId: nat, signalType: Side, targetPrice: real, quantity: real,
    description: Option<string>, isActive: Option<bool>)

  datatype UpdateSignalInput = UpdateSignalInput(
    id: nat, assetId: Option<nat>, signalType: Option<Side>, targetPrice: Option<real>,
    quantity: Option<real>, description: Option<Option<string>>, isActive: Option<bool>)

  datatype ExecuteTradeInput = ExecuteTradeInput(assetId: nat, tradeType: Side, quantity: real)

  // ---------------------------------------------------------------------
  // Field constraints
  // ---------------------------------------------------------------------

  predicate ValidSymbol(s: string) { 1 <= |s| <= 10 }

  predicate ValidAssetName(s: string) { 1 <= |s| }

  predicate ValidCopyTraderName(s: string) { 1 <= |s| }

  predicate ValidCounter(n: int) { 0 <= n }

  predicate ValidCreateAsset(i: CreateAssetInput) {
    ValidSymbol(i.symbol) && ValidAssetName(i.name) && i.currentPrice > 0.0
  }

  predicate ValidUpdateAsset(i: UpdateAssetInput) {
    && (i.symbol.Some? ==> ValidSymbol(i.symbol.value))
    && (i.name.Some? ==> ValidAssetName(i.name.value))
    && (i.currentPrice.Some? ==> i.currentPrice.value > 0.0)
  }

  predicate ValidCreateCopyTrader(i: CreateCopyTraderInput) {
    ValidCopyTraderName(i.name) && ValidCounter(i.tradesWon)
    && ValidCounter(i.tradesLost) && ValidCounter(i.followers)
  }

  predicate ValidUpdateCopyTrader(i: UpdateCopyTraderInput) {
    && (i.name.Some? ==> ValidCopyTraderName(i.name.value))
    && (i.tradesWon.Some? ==> ValidCounter(i.tradesWon.value))
    && (i.tradesLost.Some? ==> ValidCounter(i.tradesLost.value))
    && (i.followers.Some? ==> ValidCounter(i.followers.value))
  }

  predicate ValidCreateSignal(i: CreateSignalInput) {
    i.targetPrice > 0.0 && i.quantity > 0.0
  }

  predicate ValidUpdateSignal(i: UpdateSignalInput) {
    && (i.targetPrice.Some? ==> i.targetPrice.value > 0.0)
    && (i.quantity.Some? ==> i.quantity.value > 0.0)
  }

  predicate ValidExecuteTrade(i: ExecuteTradeInput) {
    i.quantity > 0.0
  }

  /** The `is_active` a created signal gets: the request's, or true. */
  function SignalActiveFlag(i: CreateSignalInput): (b: bool)
    ensures i.isActive.None? ==> b
    ensures i.isActive.Some? ==> b == i.isActive.value
  {
    i.isActive.GetOr(true)
  }

  // ---------------------------------------------------------------------
  // Row invariants: a stored row still satisfies the schema it was
  // created under.
  // ---------------------------------------------------------------------

  predicate ValidAsset(a: Asset) {
    ValidCreateAsset(CreateAssetInput(a.symbol, a.name, a.currentPrice))
  }

  predicate ValidSignal(s: Signal) {
    s.targetPrice > 0.0 && s.quantity > 0.0
  }

  predicate ValidCopyTraderRow(c: CopyTrader) {
    ValidCreateCopyTrader(CreateCopyTraderInput(c.name, c.tradesWon, c.tradesLost, c.followers))
  }
}

=== FILE: store.dfy ===
/** The relational store and the handlers that change it. Each table is a
    field of `Store`; each handler is a method that checks its guards in
    the source's order, writes nothing when one fails, and otherwise
    performs its inserts, updates and deletes. A handler call is atomic:
    the interleavings of concurrent requests are not modelled. */
module Store {
  import opened Common
  import opened Schema
  import opened Ledger
  import opened Catalogue
  import opened Queries
  import opened Tables
  import opened Invariants

  class Store {
    var users: map<nat, User>
    var trades: map<nat, Trade>
    var traders: map<nat, Trader>
    var subscriptions: map<nat, Subscription>
    var wallets: map<(nat, string), Wallet>
    var transactions: seq<Transaction>
    var traderSignals: map<nat, TraderSignal>
    var copyTrades: map<nat, CopyTrade>
    var assets: map<nat, Asset>
    var signals: map<nat, Signal>
    var simulatedTrades: map<nat, SimulatedTrade>
    var copyTraders: map<nat, CopyTrader>
    var nextId: nat

    ghost function State(): Snapshot
      reads this
    {
      Snapshot(users, trades, traders, subscriptions, wallets, transactions, traderSignals,
               copyTrades, assets, signals, simulatedTrades, copyTraders, nextId)
    }

    ghost predicate Valid()
      reads this
    {
      Consistent(State())
    }

    /** An empty store; serial ids start at 1. */
    constructor ()
      ensures Valid()
      ensures State() == Snapshot(map[], map[], map[], map[], map[], [], map[], map[],
                                  map[], map[], map[], map[], 1)
    {
      users, trades, traders, subscriptions := map[], map[], map[], map[];
      wallets, transactions, traderSignals, copyTrades := map[], [], map[], map[];
      assets, signals, simulatedTrades, copyTraders := map[], map[], map[], map[];
      nextId := 1;
      EmptyConsistent(1);
    }

    // -------------------------------------------------------------------
    // Account set-up
    // -------------------------------------------------------------------

    /** createUser (create_user.ts:5-43): inserts the user with the
        starting balance, then its USD wallet. A duplicate e-mail or
        username makes the user insert fail, so no wallet is created. */
    method CreateUser(input: CreateUserInput, now: Time) returns (r: Result<User>)
      modifies this
      ensures old(Valid()) ==> Valid()
      ensures r.Err? <==>
        exists k :: k in old(users) && (old(users)[k].email == input.email || old(users)[k].username == input.username)
      ensures r.Err? ==> r.error == DuplicateKey && State() == old(State())
      ensures r.Ok? ==>
        var u := r.value;
        var w := Wallet(old(nextId) + 1, u.id, DefaultCurrency, InitialBalance, InitialBalance, 0.0, now, now);
        && u == User(old(nextId), input.email, input.username, input.firstName, input.lastName,
                     OrNull(input.phone), OrNull(input.country), None, false, InitialBalance, now, now)
        && State() == old(State()).(users := old(users)[u.id := u],
                                    wallets := old(wallets)[(u.id, DefaultCurrency) := w],
                                    nextId := old(nextId) + 2)
    {
      if exists k :: k in users && (users[k].email == input.email || users[k].username == input.username) {
        return Err(DuplicateKey);
      }
      var user := User(nextId, input.email, input.username, input.firstName, input.lastName,
                       OrNull(input.phone), OrNull(input.country), None, false, InitialBalance, now, now);
      var wallet := Wallet(nextId + 1, user.id, DefaultCurrency, InitialBalance, InitialBalance, 0.0, now, now);
      users := users[user.id := user];
      wallets := wallets[(user.id, DefaultCurrency) := wallet];
      nextId := nextId + 2;
      CreateUserKeeps(old(State()), user, wallet, State());
      r := Ok(user);
    }

    /** createTrader (create_trader.ts:6-51): the user must exist and
        must not have a trader profile yet. */
    method CreateTrader(input: CreateTraderInput, now: Time) returns (r: Result<Trader>)
      modifies this
      ensures old(Valid()) ==> Valid()
      ensures r.Err? <==>
        input.userId !in old(users) || exists k :: k in old(traders) && old(traders)[k].userId == input.userId
      ensures input.userId !in old(users) ==> r == Err(NotFound(Users))
      ensures input.userId in old(users) && r.Err? ==> r.error == TraderProfileExists
      ensures r.Err? ==> State() == old(State())
      ensures r.Ok? ==>
        && r.value == Trader(old(nextId), input.userId, input.displayName, OrNull(input.bio),
                             input.subscriptionPrice, 0, 0.0, 0.0, 0, true, now)
        && State() == old(State()).(traders := old(traders)[r.value.id := r.value],
                                    nextId := old(nextId) + 1)
    {
      if input.userId !in users {
        return Err(NotFound(Users));
      }
      if exists k :: k in traders && traders[k].userId == input.userId {
        return Err(TraderProfileExists);
      }
      var trader := Trader(nextId, input.userId, input.displayName, OrNull(input.bio),
                           input.subscriptionPrice, 0, 0.0, 0.0, 0, true, now);
      traders := traders[trader.id := trader];
      nextId := nextId + 1;
      InsertTraderKeeps(old(State()), trader, State());
      r := Ok(trader);
    }

    /** createTransaction (create_transaction.ts:6-41): appends a pending
        transaction for an existing user. */
    method CreateTransaction(input: CreateTransactionInput, now: Time) returns (r: Result<Transaction>)
      modifies this
      ensures old(Valid()) ==> Valid()
      ensures r.Err? <==> input.userId !in old(users)
      ensures r.Err? ==> r.error == NotFound(Users) && State() == old(State())
      ensures r.Ok? ==>
        && r.value == Transaction(old(nextId), input.userId, input.txType, input.amount, input.currency,
                                  TransactionStatus.Pending, DescriptionNote(input.description),
                                  OrNull(input.referenceId), now, None)
        && State() == old(State()).(transactions := old(transactions) + [r.value],
                                    nextId := old(nextId) + 1)
    {
      if input.userId !in users {
        return Err(NotFound(Users));
      }
      var tx := Transaction(nextId, input.userId, input.txType, input.amount, input.currency,
                            TransactionStatus.Pending, DescriptionNote(input.description),
                            OrNull(input.referenceId), now, None);
      transactions := transactions + [tx];
      nextId := nextId + 1;
      AppendTransactionKeeps(old(State()), tx, State());
      r := Ok(tx);
    }

    // -------------------------------------------------------------------
    // Trades
    // -------------------------------------------------------------------

    /** createTrade (create_trade.ts:6-71): a buy needs a balance of at
        least quantity * entry price; the trade is inserted as executed
        and the owner is debited (buy) or credited (sell) by its value. */
    method CreateTrade(input: CreateTradeInput, now: Time) returns (r: Result<Trade>)
      modifies this
      ensures old(Valid()) ==> Valid()
      ensures var e := OpenTradeCheck(Get(old(users), input.userId), input.tradeType,
                                      input.quantity * input.entryPrice);
        && (r.Err? <==> e.Some?)
        && (r.Err? ==> r.error == e.value && State() == old(State()))
      ensures r.Ok? ==>
        var owner := old(users)[input.userId];
        && r.value == Trade(old(nextId), input.userId, input.symbol, input.assetType, input.tradeType,
                            input.quantity, input.entryPrice, None, TradeStatus.Executed, None, now, None)
        && State() == old(State()).(
             trades := old(trades)[r.value.id := r.value],
             users := old(users)[input.userId := owner.(
               virtualBalance := owner.virtualBalance
                                 + OpeningDelta(input.tradeType, input.quantity, input.entryPrice),
               updatedAt := now)],
             nextId := old(nextId) + 1)
        && users[input.userId].virtualBalance
           == owner.virtualBalance + OpeningDelta(input.tradeType, input.quantity, input.entryPrice)
      ensures r.Ok? && input.tradeType == Buy ==>
        && users[input.userId].virtualBalance >= 0.0
        && (users[input.userId].virtualBalance == 0.0
            <==> old(users)[input.userId].virtualBalance == input.quantity * input.entryPrice)
    {
      if input.userId !in users {
        return Err(NotFound(Users));
      }
      var user := users[input.userId];
      var tradeValue := input.quantity * input.entryPrice;
      var currentBalance := user.virtualBalance;
      if input.tradeType == Buy && currentBalance < tradeValue {
        return Err(InsufficientBalance);
      }
      var trade := Trade(nextId, input.userId, input.symbol, input.assetType, input.tradeType,
                         input.quantity, input.entryPrice, None, TradeStatus.Executed, None, now, None);
      var newBalance: real;
      if input.tradeType == Buy {
        newBalance := currentBalance - tradeValue;
      } else {
        newBalance := currentBalance + tradeValue;
      }
      assert newBalance == currentBalance + OpeningDelta(input.tradeType, input.quantity, input.entryPrice);
      var user' := user.(virtualBalance := newBalance, updatedAt := now);
      trades := trades[trade.id := trade];
      nextId := nextId + 1;
      users := users[input.userId := user'];
      TradeAndOwnerKeeps(old(State()), trade.id, trade, input.userId, user', true, State());
      r := Ok(trade);
    }

    /** closeTrade (close_trade.ts:6-83): any trade that is neither closed
        nor cancelled is closed at the exit price, and its profit or loss
        is added to the owner's balance. The handler reads the owner's row
        without checking that it exists, so the owner must exist; a
        consistent store guarantees it (TradesOk). */
    method CloseTrade(input: CloseTradeInput, now: Time) returns (r: Result<Trade>)
      requires input.id in trades ==> trades[input.id].userId in users
      modifies this
      ensures old(Valid()) ==> Valid()
      ensures var e := CloseTradeCheck(Get(old(trades), input.id));
        && (r.Err? <==> e.Some?)
        && (r.Err? ==> r.error == e.value && State() == old(State()))
      ensures r.Ok? ==>
        var t := old(trades)[input.id];
        var owner := old(users)[t.userId];
        var pl := ProfitLoss(t.tradeType, t.entryPrice, input.exitPrice, t.quantity);
        && r.value == ClosedTrade(t, input.exitPrice, now)
        && State() == old(State()).(
             trades := old(trades)[input.id := r.value],
             users := old(users)[t.userId := owner.(virtualBalance := owner.virtualBalance + pl,
                                                    updatedAt := now)])
        && users[t.userId].virtualBalance == owner.virtualBalance + pl
    {
      if input.id !in trades {
        return Err(NotFound(Trades));
      }
      var trade := trades[input.id];
      if trade.status == TradeStatus.Closed || trade.status == TradeStatus.Cancelled {
        return Err(AlreadyClosedOrCancelled);
      }
      var profitLoss: real;
      if trade.tradeType == Buy {
        profitLoss := (input.exitPrice - trade.entryPrice) * trade.quantity;
      } else {
        profitLoss := (trade.entryPrice - input.exitPrice) * trade.quantity;
      }
      var closed := trade.(exitPrice := Some(input.exitPrice), profitLoss := Some(profitLoss),
                           status := TradeStatus.Closed, closedAt := Some(now));
      assert profitLoss == ProfitLoss(trade.tradeType, trade.entryPrice, input.exitPrice, trade.quantity);
      assert closed == ClosedTrade(trade, input.exitPrice, now);
      var owner := users[trade.userId];
      var owner' := owner.(virtualBalance := owner.virtualBalance + profitLoss, updatedAt := now);
      trades := trades[input.id := closed];
      users := users[trade.userId := owner'];
      TradeAndOwnerKeeps(old(State()), input.id, closed, trade.userId, owner', false, State());
      r := Ok(closed);
    }

    /** The scenario of closing one trade twice: the second call fails and
        the owner's balance moves by the first call's profit or loss only. */
    method CloseTradeTwice(id: nat, exit1: real, exit2: real, now: Time)
      returns (first: Result<Trade>, second: Result<Trade>)
      requires id in trades ==> trades[id].userId in users
      modifies this
      ensures old(Valid()) ==> Valid()
      ensures first.Ok? ==> second == Err(AlreadyClosedOrCancelled)
      ensures first.Ok? ==> id in old(trades)
      ensures first.Ok? ==>
        var t := old(trades)[id];
        && t.userId in old(users) && t.userId in users
        && users[t.userId].virtualBalance == old(users)[t.userId].virtualBalance
                                             + ProfitLoss(t.tradeType, t.entryPrice, exit1, t.quantity)
      ensures first.Err? ==> second.Err? && State() == old(State())
    {
      first := CloseTrade(CloseTradeInput(id, exit1), now);
      second := CloseTrade(CloseTradeInput(id, exit2), now);
    }

    // -------------------------------------------------------------------
    // Subscriptions
    // -------------------------------------------------------------------

    /** createSubscription (create_subscription.ts:6-73): subscriber,
        trader, balance and price floor are checked in that order; the
        subscription is inserted as active and its price is deducted from
        the subscriber only. */
    method CreateSubscription(input: CreateSubscriptionInput, now: Time) returns (r: Result<Subscription>)
      modifies this
      ensures old(Valid()) ==> Valid()
      ensures var e := SubscribeCheck(Get(old(users), input.subscriberId), Get(old(traders), input.traderId),
                                      input.pricePaid);
        && (r.Err? <==> e.Some?)
        && (r.Err? ==> r.error == e.value && State() == old(State()))
      ensures r.Ok? ==>
        var u := old(users)[input.subscriberId];
        && r.value == Subscription(old(nextId), input.subscriberId, input.traderId,
                                   SubscriptionStatus.Active, input.pricePaid, now, None, now)
        && State() == old(State()).(
             subscriptions := old(subscriptions)[r.value.id := r.value],
             users := old(users)[input.subscriberId := u.(virtualBalance := u.virtualBalance - input.pricePaid,
                                                          updatedAt := now)],
             nextId := old(nextId) + 1)
        && users[input.subscriberId].virtualBalance == u.virtualBalance - input.pricePaid
        && users[input.subscriberId].virtualBalance >= 0.0
    {
      if input.subscriberId !in users {
        return Err(NotFound(Users));
      }
      if input.traderId !in traders {
        return Err(NotFound(Traders));
      }
      var subscriber := users[input.subscriberId];
      var trader := traders[input.traderId];
      if subscriber.virtualBalance < input.pricePaid {
        return Err(InsufficientBalance);
      }
      if input.pricePaid < trader.subscriptionPrice {
        return Err(PriceBelowSubscriptionPrice);
      }
      var subscription := Subscription(nextId, input.subscriberId, input.traderId,
                                       SubscriptionStatus.Active, input.pricePaid, now, None, now);
      var subscriber' := subscriber.(virtualBalance := subscriber.virtualBalance - input.pricePaid,
                                     updatedAt := now);
      subscriptions := subscriptions[subscription.id := subscription];
      nextId := nextId + 1;
      users := users[input.subscriberId := subscriber'];
      SubscribeKeeps(old(State()), subscription, input.subscriberId, subscriber', State());
      r := Ok(subscription);
    }

    /** cancelSubscription (get_subscriptions.ts:45-80): marks an active
        or expired subscription cancelled and ends it now; nothing is
        refunded. */
    method CancelSubscription(id: nat, now: Time) returns (r: Result<Subscription>)
      modifies this
      ensures old(Valid()) ==> Valid()
      ensures var e := CancelCheck(Get(old(subscriptions), id));
        && (r.Err? <==> e.Some?)
        && (r.Err? ==> r.error == e.value && State() == old(State()))
      ensures r.Ok? ==>
        && r.value == old(subscriptions)[id].(status := SubscriptionStatus.Cancelled, endDate := Some(now))
        && State() == old(State()).(subscriptions := old(subscriptions)[id := r.value])
    {
      if id !in subscriptions {
        return Err(NotFound(Subscriptions));
      }
      if subscriptions[id].status == SubscriptionStatus.Cancelled {
        return Err(AlreadyCancelled);
      }
      var cancelled := subscriptions[id].(status := SubscriptionStatus.Cancelled, endDate := Some(now));
      subscriptions := subscriptions[id := cancelled];
      ReplaceSubscriptionKeeps(old(State()), id, cancelled, State());
      r := Ok(cancelled);
    }

    // -------------------------------------------------------------------
    // Wallets
    // -------------------------------------------------------------------

    /** fundWallet (fund_wallet.ts:6-87): adds the amount to the wallet for
        (user, currency), creating it if needed, and logs one completed
        funding transaction. The user's virtual balance is not touched,
        and a repeated external reference is logged again. */
    method FundWallet(input: FundWalletInput, now: Time) returns (r: Result<Wallet>)
      modifies this
      ensures old(Valid()) ==> Valid()
      ensures r.Err? <==> input.userId !in old(users)
      ensures r.Err? ==> r.error == NotFound(Users) && State() == old(State())
      ensures r.Ok? ==>
        var key := (input.userId, input.currency);
        var existing := Get(old(wallets), key);
        var created := if existing.Some? then 0 else 1;
        && r.value == FundedWallet(existing, old(nextId), input.userId, input.currency, input.amount, now)
        && State() == old(State()).(
             wallets := old(wallets)[key := r.value],
             transactions := old(transactions) + [FundingRecord(old(nextId) + created, input, now)],
             nextId := old(nextId) + created + 1)
    {
      if input.userId !in users {
        return Err(NotFound(Users));
      }
      var key := (input.userId, input.currency);
      var wallet: Wallet;
      var txId: nat;
      var created := key !in wallets;
      if !created {
        var current := wallets[key];
        wallet := current.(balance := current.balance + input.amount,
                           availableBalance := current.availableBalance + input.amount,
                           updatedAt := now);
        txId := nextId;
      } else {
        wallet := Wallet(nextId, input.userId, input.currency, input.amount, input.amount, 0.0, now, now);
        txId := nextId + 1;
      }
      var tx := Transaction(txId, input.userId, TransactionType.FundWallet, input.amount, input.currency,
                            TransactionStatus.Completed, Some(FundingNote(input.amount, input.currency)),
                            OrNull(input.externalReference), now, Some(now));
      wallets := wallets[key := wallet];
      transactions := transactions + [tx];
      nextId := txId + 1;
      FundKeeps(old(State()), key, wallet, tx, created, State());
      r := Ok(wallet);
    }

    /** Funding the (user, currency) wallet with each amount in turn, one
        fundWallet call per amount: see `FundedSoFar` for what the calls
        add up to. When the user does not exist every call fails and
        nothing changes. */
    method FundWalletRepeatedly(userId: nat, currency: string, amounts: seq<real>, now: Time)
      modifies this
      ensures old(Valid()) ==> Valid()
      ensures userId !in old(users) ==> State() == old(State())
      ensures userId in old(users) ==> FundedSoFar(old(State()), State(), userId, currency, amounts)
    {
      if userId !in users {
        return;
      }
      var i := 0;
      while i < |amounts|
        invariant 0 <= i <= |amounts|
        invariant old(Valid()) ==> Valid()
        invariant FundedSoFar(old(State()), State(), userId, currency, amounts[..i])
      {
        ghost var before := State();
        var r := FundWallet(FundWalletInput(userId, currency, amounts[i], None), now);
        FundedSoFarStep(old(State()), before, State(), userId, currency, amounts[..i], amounts[i],
                        transactions[|transactions| - 1], now);
        assert amounts[..i + 1] == amounts[..i] + [amounts[i]];
        i := i + 1;
      }
      assert amounts[..i] == amounts;
    }

    // -------------------------------------------------------------------
    // Copy trading
    // -------------------------------------------------------------------

    /** copyTrade (copy_trade.ts:6-95): after five ordered checks, inserts
        an executed trade of quantity 1 for the subscriber, copied from
        the signal, and a copy-trade row linking subscriber, trader,
        signal and trade. The subscriber's balance is neither checked nor
        changed. */
    method CopyTrade(input: CopyTradeInput, now: Time) returns (r: Result<CopyTrade>)
      modifies this
      ensures old(Valid()) ==> Valid()
      ensures var e := CopyCheck(Get(old(traderSignals), input.signalId), input.traderId,
                                 input.subscriberId in old(users),
                                 HasActiveSubscription(old(subscriptions), input.subscriberId, input.traderId));
        && (r.Err? <==> e.Some?)
        && (r.Err? ==> r.error == e.value && State() == old(State()))
      ensures r.Ok? ==>
        var sig := old(traderSignals)[input.signalId];
        var t := Trade(old(nextId), input.subscriberId, sig.symbol, sig.assetType, sig.signalType,
                       CopiedQuantity, sig.entryPrice, None, TradeStatus.Executed, None, now, None);
        && r.value == Ledger.CopyTrade.CopyTrade(old(nextId) + 1, input.subscriberId, input.traderId, input.signalId,
                                t.id, TradeStatus.Executed, Some(now), now)
        && State() == old(State()).(trades := old(trades)[t.id := t],
                                    copyTrades := old(copyTrades)[r.value.id := r.value],
                                    nextId := old(nextId) + 2)
    {
      if input.signalId !in traderSignals {
        return Err(NotFound(Signals));
      }
      var signal := traderSignals[input.signalId];
      if !signal.isActive {
        return Err(SignalInactive);
      }
      if signal.traderId != input.traderId {
        return Err(TraderMismatch);
      }
      if input.subscriberId !in users {
        return Err(NotFound(Users));
      }
      if !HasActiveSubscription(subscriptions, input.subscriberId, input.traderId) {
        return Err(NoActiveSubscription);
      }
      var trade := Trade(nextId, input.subscriberId, signal.symbol, signal.assetType, signal.signalType,
                         CopiedQuantity, signal.entryPrice, None, TradeStatus.Executed, None, now, None);
      var link := Ledger.CopyTrade.CopyTrade(nextId + 1, input.subscriberId, input.traderId, input.signalId,
                                             trade.id, TradeStatus.Executed, None, now);
      var executed := link.(executedAt := Some(now));
      Overwrite(copyTrades, link.id, link, executed);
      trades := trades[trade.id := trade];
      copyTrades := copyTrades[link.id := link];
      nextId := nextId + 2;
      copyTrades := copyTrades[link.id := executed];
      CopyTradeKeeps(old(State()), trade, executed, State());
      r := Ok(executed);
    }

    // -------------------------------------------------------------------
    // Users
    // -------------------------------------------------------------------

    /** updateUser (update_user.ts:6-49): replaces the provided profile
        fields of an existing user. */
    method UpdateUser(input: UpdateUserInput, now: Time) returns (r: Result<User>)
      modifies this
      ensures old(Valid()) ==> Valid()
      ensures r.Err? <==> input.id !in old(users)
      ensures r.Err? ==> r.error == NotFound(Users) && State() == old(State())
      ensures r.Ok? ==>
        && r.value == MergeUser(old(users)[input.id], input, now)
        && State() == old(State()).(users := old(users)[input.id := r.value])
    {
      if input.id !in users {
        return Err(NotFound(Users));
      }
      var user := users[input.id].(updatedAt := now);
      if input.firstName.Some? { user := user.(firstName := input.firstName.value); }
      if input.lastName.Some? { user := user.(lastName := input.lastName.value); }
      if input.phone.Some? { user := user.(phone := input.phone.value); }
      if input.country.Some? { user := user.(country := input.country.value); }
      if input.avatarUrl.Some? { user := user.(avatarUrl := input.avatarUrl.value); }
      assert user == MergeUser(users[input.id], input, now);
      users := users[input.id := user];
      ReplaceUserKeeps(old(State()), input.id, user, State());
      r := Ok(user);
    }

    /** verifyUser (update_user.ts:51-76): marks an existing user
        verified; verifying again changes only the timestamp. */
    method VerifyUser(id: nat, now: Time) returns (r: Result<User>)
      modifies this
      ensures old(Valid()) ==> Valid()
      ensures r.Err? <==> id !in old(users)
      ensures r.Err? ==> r.error == NotFound(Users) && State() == old(State())
      ensures r.Ok? ==>
        && r.value == old(users)[id].(isVerified := true, updatedAt := now)
        && (old(users)[id].isVerified ==> r.value == old(users)[id].(updatedAt := now))
        && State() == old(State()).(users := old(users)[id := r.value])
    {
      if id !in users {
        return Err(NotFound(Users));
      }
      var user := users[id].(isVerified := true, updatedAt := now);
      users := users[id := user];
      ReplaceUserKeeps(old(State()), id, user, State());
      r := Ok(user);
    }

    // -------------------------------------------------------------------
    // Catalogue
    // -------------------------------------------------------------------

    /** executeTrade (execute_trade.ts:6-43): records a simulated trade of
        an existing asset at the asset's current price. */
    method ExecuteTrade(input: ExecuteTradeInput, now: Time) returns (r: Result<SimulatedTrade>)
      requires ValidExecuteTrade(input)
      modifies this
      ensures old(Valid()) ==> Valid()
      ensures r.Err? <==> input.assetId !in old(assets)
      ensures r.Err? ==> r.error == NotFound(Assets) && State() == old(State())
      ensures r.Ok? ==>
        && r.value == SimulatedTrade(old(nextId), input.assetId, input.tradeType, input.quantity,
                                     old(assets)[input.assetId].currentPrice, now)
        && State() == old(State()).(simulatedTrades := old(simulatedTrades)[r.value.id := r.value],
                                    nextId := old(nextId) + 1)
    {
      if input.assetId !in assets {
        return Err(NotFound(Assets));
      }
      var currentPrice := assets[input.assetId].currentPrice;
      var trade := SimulatedTrade(nextId, input.assetId, input.tradeType, input.quantity, currentPrice, now);
      simulatedTrades := simulatedTrades[trade.id := trade];
      nextId := nextId + 1;
      InsertSimulatedTradeKeeps(old(State()), trade, State());
      r := Ok(trade);
    }

    /** createSignal (create_signal.ts:6-42): inserts a signal about an
        existing asset. */
    method CreateSignal(input: CreateSignalInput, now: Time) returns (r: Result<Signal>)
      requires ValidCreateSignal(input)
      modifies this
      ensures old(Valid()) ==> Valid()
      ensures r.Err? <==> input.assetId !in old(assets)
      ensures r.Err? ==> r.error == NotFound(Assets) && State() == old(State())
      ensures r.Ok? ==>
        && r.value == Signal(old(nextId), input.assetId, input.signalType, input.targetPrice,
                             input.quantity, input.description, SignalActiveFlag(input), now, now)
        && State() == old(State()).(signals := old(signals)[r.value.id := r.value],
                                    nextId := old(nextId) + 1)
    {
      if input.assetId !in assets {
        return Err(NotFound(Assets));
      }
      var signal := Signal(nextId, input.assetId, input.signalType, input.targetPrice, input.quantity,
                           input.description, input.isActive.GetOr(true), now, now);
      signals := signals[signal.id := signal];
      nextId := nextId + 1;
      InsertSignalKeeps(old(State()), signal, State());
      r := Ok(signal);
    }

    /** updateAsset (update_asset.ts:6-50): merges the provided fields
        into an existing asset. A symbol already used by another asset is
        refused by the store's unique constraint. */
    method UpdateAsset(input: UpdateAssetInput, now: Time) returns (r: Result<Asset>)
      requires ValidUpdateAsset(input)
      modifies this
      ensures old(Valid()) ==> Valid()
      ensures r.Err? <==>
        || input.id !in old(assets)
        || exists k :: k in old(assets) && k != input.id &&
             old(assets)[k].symbol == MergeAsset(old(assets)[input.id], input, now).symbol
      ensures input.id !in old(assets) ==> r == Err(NotFound(Assets))
      ensures input.id in old(assets) && r.Err? ==> r.error == DuplicateKey
      ensures r.Err? ==> State() == old(State())
      ensures r.Ok? ==>
        && r.value == MergeAsset(old(assets)[input.id], input, now)
        && State() == old(State()).(assets := old(assets)[input.id := r.value])
    {
      if input.id !in assets {
        return Err(NotFound(Assets));
      }
      var asset := assets[input.id].(updatedAt := now);
      if input.symbol.Some? { asset := asset.(symbol := input.symbol.value); }
      if input.name.Some? { asset := asset.(name := input.name.value); }
      if input.currentPrice.Some? { asset := asset.(currentPrice := input.currentPrice.value); }
      assert asset == MergeAsset(assets[input.id], input, now);
      if exists k :: k in assets && k != input.id && assets[k].symbol == asset.symbol {
        return Err(DuplicateKey);
      }
      assets := assets[input.id := asset];
      ReplaceAssetKeeps(old(State()), input.id, asset, State());
      r := Ok(asset);
    }

    /** updateSignal (update_signal.ts:6-72): the signal must exist, and a
        provided asset id must name an existing asset; then the provided
        fields are merged in. */
    method UpdateSignal(input: UpdateSignalInput, now: Time) returns (r: Result<Signal>)
      requires ValidUpdateSignal(input)
      modifies this
      ensures old(Valid()) ==> Valid()
      ensures r.Err? <==> input.id !in old(signals) || (input.assetId.Some? && input.assetId.value !in old(assets))
      ensures input.id !in old(signals) ==> r == Err(NotFound(Signals))
      ensures input.id in old(signals) && r.Err? ==> r.error == NotFound(Assets)
      ensures r.Err? ==> State() == old(State())
      ensures r.Ok? ==>
        && r.value == MergeSignal(old(signals)[input.id], input, now)
        && State() == old(State()).(signals := old(signals)[input.id := r.value])
    {
      if input.id !in signals {
        return Err(NotFound(Signals));
      }
      if input.assetId.Some? && input.assetId.value !in assets {
        return Err(NotFound(Assets));
      }
      var signal := signals[input.id].(updatedAt := now);
      if input.assetId.Some? { signal := signal.(assetId := input.assetId.value); }
      if input.signalType.Some? { signal := signal.(signalType := input.signalType.value); }
      if input.targetPrice.Some? { signal := signal.(targetPrice := input.targetPrice.value); }
      if input.quantity.Some? { signal := signal.(quantity := input.quantity.value); }
      if input.description.Some? { signal := signal.(description := input.description.value); }
      if input.isActive.Some? { signal := signal.(isActive := input.isActive.value); }
      assert signal == MergeSignal(signals[input.id], input, now);
      signals := signals[input.id := signal];
      ReplaceSignalKeeps(old(State()), input.id, signal, State());
      r := Ok(signal);
    }

    /** deleteSignal (delete_signal.ts:6-28). */
    method DeleteSignal(id: nat) returns (r: Result<bool>)
      modifies this
      ensures old(Valid()) ==> Valid()
      ensures r.Err? <==> id !in old(signals)
      ensures r.Err? ==> r.error == NotFound(Signals) && State() == old(State())
      ensures r.Ok? ==> r.value && State() == old(State()).(signals := old(signals) - {id})
    {
      if id !in signals {
        return Err(NotFound(Signals));
      }
      signals := signals - {id};
      RemoveSignalKeeps(old(State()), id, State());
      r := Ok(true);
    }

    /** deleteAsset (delete_asset.ts:6-38): deletes the asset's signals,
        then its simulated trades, then the asset. */
    method DeleteAsset(id: nat) returns (r: Result<bool>)
      modifies this
      ensures old(Valid()) ==> Valid()
      ensures r.Err? <==> id !in old(assets)
      ensures r.Err? ==> r.error == NotFound(Assets) && State() == old(State())
      ensures r.Ok? ==>
        && r.value
        && (forall k :: k in signals ==> signals[k].assetId != id)
        && (forall k :: k in simulatedTrades ==> simulatedTrades[k].assetId != id)
        && State() == old(State()).(signals := SignalsWithoutAsset(old(signals), id),
                                    simulatedTrades := TradesWithoutAsset(old(simulatedTrades), id),
                                    assets := old(assets) - {id})
    {
      if id !in assets {
        return Err(NotFound(Assets));
      }
      signals := SignalsWithoutAsset(signals, id);
      simulatedTrades := TradesWithoutAsset(simulatedTrades, id);
      assets := assets - {id};
      DeleteAssetKeeps(old(State()), id, State());
      r := Ok(true);
    }

    /** updateCopyTrader (update_copy_trader.ts:6-42). */
    method UpdateCopyTrader(input: UpdateCopyTraderInput, now: Time) returns (r: Result<CopyTrader>)
      requires ValidUpdateCopyTrader(input)
      modifies this
      ensures old(Valid()) ==> Valid()
      ensures r.Err? <==> input.id !in old(copyTraders)
      ensures r.Err? ==> r.error == NotFound(CopyTraders) && State() == old(State())
      ensures r.Ok? ==>
        && r.value == MergeCopyTrader(old(copyTraders)[input.id], input, now)
        && State() == old(State()).(copyTraders := old(copyTraders)[input.id := r.value])
    {
      if input.id !in copyTraders {
        return Err(NotFound(CopyTraders));
      }
      var trader := copyTraders[input.id].(updatedAt := now);
      if input.name.Some? { trader := trader.(name := input.name.value); }
      if input.tradesWon.Some? { trader := trader.(tradesWon := input.tradesWon.value); }
      if input.tradesLost.Some? { trader := trader.(tradesLost := input.tradesLost.value); }
      if input.followers.Some? { trader := trader.(followers := input.followers.value); }
      assert trader == MergeCopyTrader(copyTraders[input.id], input, now);
      copyTraders := copyTraders[input.id := trader];
      ReplaceCopyTraderKeeps(old(State()), input.id, trader, State());
      r := Ok(trader);
    }

    /** deleteCopyTrader (delete_copy_trader.ts:6-28). */
    method DeleteCopyTrader(id: nat) returns (r: Result<bool>)
      modifies this
      ensures old(Valid()) ==> Valid()
      ensures r.Err? <==> id !in old(copyTraders)
      ensures r.Err? ==> r.error == NotFound(CopyTraders) && State() == old(State())
      ensures r.Ok? ==> r.value && State() == old(State()).(copyTraders := old(copyTraders) - {id})
    {
      if id !in copyTraders {
        return Err(NotFound(CopyTraders));
      }
      copyTraders := copyTraders - {id};
      RemoveCopyTraderKeeps(old(State()), id, State());
      r := Ok(true);
    }
  }

  /** What funding the (user, currency) wallet with each of `amounts` in
      turn does to store `s0`, giving `s`: balance and available balance
      of that wallet grow by the sum of the amounts, its locked balance
      stays, a first funding creates it, no other wallet changes, one
      funding transaction per amount is appended after the earlier ones,
      and no other table changes. */
  ghost predicate FundedSoFar(s0: Snapshot, s: Snapshot, userId: nat, currency: string, amounts: seq<real>) {
    var key := (userId, currency);
    var before := Get(s0.wallets, key);
    var after := Get(s.wallets, key);
    && s == s0.(wallets := s.wallets, transactions := s.transactions, nextId := s.nextId)
    && (after.Some? <==> before.Some? || amounts != [])
    && BalanceOf(after) == BalanceOf(before) + Sum(amounts)
    && AvailableOf(after) == AvailableOf(before) + Sum(amounts)
    && LockedOf(after) == LockedOf(before)
    && (forall k :: k != key ==> Get(s.wallets, k) == Get(s0.wallets, k))
    && |s.transactions| == |s0.transactions| + |amounts|
    && s.transactions[..|s0.transactions|] == s0.transactions
    && (forall j :: |s0.transactions| <= j < |s.transactions| ==>
          && s.transactions[j].txType == TransactionType.FundWallet
          && s.transactions[j].userId == userId && s.transactions[j].currency == currency
          && s.transactions[j].amount == amounts[j - |s0.transactions|])
  }

  /** One more successful fundWallet call extends `FundedSoFar` by its amount. */
  lemma FundedSoFarStep(s0: Snapshot, s: Snapshot, s': Snapshot, userId: nat, currency: string,
                        amounts: seq<real>, amount: real, tx: Transaction, now: Time)
    requires FundedSoFar(s0, s, userId, currency, amounts)
    requires tx.txType == TransactionType.FundWallet && tx.userId == userId
    requires tx.currency == currency && tx.amount == amount
    requires var key := (userId, currency);
      s' == s.(wallets := s.wallets[key := FundedWallet(Get(s.wallets, key), s.nextId, userId, currency, amount, now)],
               transactions := s.transactions + [tx],
               nextId := s'.nextId)
    ensures FundedSoFar(s0, s', userId, currency, amounts + [amount])
  {
    SumAppend(amounts, amount);
    assert s'.transactions[..|s.transactions|] == s.transactions;
  }
}

=== FILE: tables.dfy ===
/** The store's tables as one value and the integrity constraints of each
    table, stated over only the tables it mentions, with one small lemma
    per kind of write to a table. Each lemma needs only the constraint of
    the table it writes, so the store-wide argument in `Invariants` is
    assembled from them. */
module Tables {
  import opened Common
  import opened Schema
  import opened Ledger
  import opened Catalogue

  /** All tables at one moment, and the next unused row id. */
  datatype Snapshot = Snapshot(
    users: map<nat, User>,
    trades: map<nat, Trade>,
    traders: map<nat, Trader>,
    subscriptions: map<nat, Subscription>,
    wallets: map<(nat, string), Wallet>,
    transactions: seq<Transaction>,
    traderSignals: map<nat, TraderSignal>,
    copyTrades: map<nat, CopyTrade>,
    assets: map<nat, Asset>,
    signals: map<nat, Signal>,
    simulatedTrades: map<nat, SimulatedTrade>,
    copyTraders: map<nat, CopyTrader>,
    nextId: nat)

  // ---------------------------------------------------------------------
  // Serial ids
  // ---------------------------------------------------------------------

  /** Every key of the table is below `n`. */
  ghost predicate KeysBelow<V>(m: map<nat, V>, n: nat) {
    forall k :: k in m ==> k < n
  }

  ghost predicate WalletIdsBelow(wallets: map<(nat, string), Wallet>, n: nat) {
    forall key :: key in wallets ==> wallets[key].id < n
  }

  ghost predicate TransactionIdsBelow(txs: seq<Transaction>, n: nat) {
    forall i :: 0 <= i < |txs| ==> txs[i].id < n
  }

  /** `n` is fresh for every table: no row id has reached it. */
  ghost predicate IdsBelow(s: Snapshot, n: nat) {
    && KeysBelow(s.users, n) && KeysBelow(s.trades, n) && KeysBelow(s.traders, n)
    && KeysBelow(s.subscriptions, n) && KeysBelow(s.traderSignals, n)
    && KeysBelow(s.copyTrades, n) && KeysBelow(s.assets, n) && KeysBelow(s.signals, n)
    && KeysBelow(s.simulatedTrades, n) && KeysBelow(s.copyTraders, n)
    && WalletIdsBelow(s.wallets, n) && TransactionIdsBelow(s.transactions, n)
  }

  lemma IdsBelowMono(s: Snapshot, n: nat, n': nat)
    requires IdsBelow(s, n) && n <= n'
    ensures IdsBelow(s, n')
  {
  }

  /** `n` itself is a key of no table and the id of no transaction. */
  lemma IdsBelowFresh(s: Snapshot, n: nat)
    requires IdsBelow(s, n)
    ensures n !in s.users && n !in s.trades && n !in s.traders
    ensures n !in s.subscriptions && n !in s.copyTrades && n !in s.assets
    ensures n !in s.signals && n !in s.simulatedTrades && n !in s.copyTraders
    ensures forall i :: 0 <= i < |s.transactions| ==> s.transactions[i].id != n
  {
  }

  lemma KeysBelowInsert<V>(m: map<nat, V>, n: nat, v: V)
    requires KeysBelow(m, n)
    ensures KeysBelow(m[n := v], n + 1)
  {
  }

  lemma KeysBelowSub<V>(m: map<nat, V>, m': map<nat, V>, n: nat)
    requires KeysBelow(m, n) && m'.Keys <= m.Keys
    ensures KeysBelow(m', n)
  {
  }

  lemma WalletIdsPut(wallets: map<(nat, string), Wallet>, n: nat, key: (nat, string), w: Wallet)
    requires WalletIdsBelow(wallets, n) && w.id < n
    ensures WalletIdsBelow(wallets[key := w], n)
  {
  }

  lemma TransactionIdsAppend(txs: seq<Transaction>, n: nat, tx: Transaction)
    requires TransactionIdsBelow(txs, n) && tx.id < n
    ensures TransactionIdsBelow(txs + [tx], n)
  {
  }

  /** Updating a row twice leaves the second value. */
  lemma Overwrite<K, V>(m: map<K, V>, k: K, a: V, b: V)
    ensures m[k := a][k := b] == m[k := b]
  {
  }

  // ---------------------------------------------------------------------
  // Users
  // ---------------------------------------------------------------------

  /** Users are stored under their ids; e-mail and username are unique. */
  ghost predicate UsersOk(users: map<nat, User>) {
    && (forall k :: k in users ==> users[k].id == k)
    && (forall j, k :: j in users && k in users && j != k ==>
          users[j].email != users[k].email && users[j].username != users[k].username)
  }

  /** Adding a user whose e-mail and username are unused keeps them unique. */
  lemma UsersInsert(users: map<nat, User>, u: User)
    requires UsersOk(users) && u.id !in users
    requires forall k :: k in users ==> users[k].email != u.email && users[k].username != u.username
    ensures UsersOk(users[u.id := u])
  {
    var users' := users[u.id := u];
    forall j, k | j in users' && k in users' && j != k
      ensures users'[j].email != users'[k].email && users'[j].username != users'[k].username
    {
      if j != u.id && k != u.id {
        assert users'[j] == users[j] && users'[k] == users[k];
      }
    }
  }

  /** Rewriting a user keeping its e-mail and username. */
  lemma UsersReplace(users: map<nat, User>, u: User)
    requires UsersOk(users) && u.id in users
    requires u.email == users[u.id].email && u.username == users[u.id].username
    ensures UsersOk(users[u.id := u]) && users[u.id := u].Keys == users.Keys
  {
    var users' := users[u.id := u];
    forall j, k | j in users' && k in users' && j != k
      ensures users'[j].email != users'[k].email && users'[j].username != users'[k].username
    {
      assert users'[j].email == users[j].email && users'[j].username == users[j].username;
      assert users'[k].email == users[k].email && users'[k].username == users[k].username;
    }
  }

  // ---------------------------------------------------------------------
  // Ledger tables
  // ---------------------------------------------------------------------

  /** Every trade has an owner, and its exit fields follow its status. */
  ghost predicate TradesOk(trades: map<nat, Trade>, userIds: set<nat>) {
    forall k :: k in trades ==>
      trades[k].id == k && trades[k].userId in userIds && TradeWellFormed(trades[k])
  }

  lemma TradesPut(trades: map<nat, Trade>, userIds: set<nat>, t: Trade)
    requires TradesOk(trades, userIds) && t.userId in userIds && TradeWellFormed(t)
    ensures TradesOk(trades[t.id := t], userIds)
  {
  }

  lemma TradesWiden(trades: map<nat, Trade>, userIds: set<nat>, userIds': set<nat>)
    requires TradesOk(trades, userIds) && userIds <= userIds'
    ensures TradesOk(trades, userIds')
  {
  }

  /** Every trader profile belongs to a user, and a user has at most one. */
  ghost predicate TradersOk(traders: map<nat, Trader>, userIds: set<nat>) {
    && (forall k :: k in traders ==> traders[k].id == k && traders[k].userId in userIds)
    && (forall j, k :: j in traders && k in traders && traders[j].userId == traders[k].userId ==> j == k)
  }

  lemma TradersInsert(traders: map<nat, Trader>, userIds: set<nat>, t: Trader)
    requires TradersOk(traders, userIds) && t.id !in traders && t.userId in userIds
    requires forall k :: k in traders ==> traders[k].userId != t.userId
    ensures TradersOk(traders[t.id := t], userIds)
  {
  }

  lemma TradersWiden(traders: map<nat, Trader>, userIds: set<nat>, userIds': set<nat>)
    requires TradersOk(traders, userIds) && userIds <= userIds'
    ensures TradersOk(traders, userIds')
  {
  }

  ghost predicate SubscriptionsOk(subs: map<nat, Subscription>, userIds: set<nat>, traderIds: set<nat>) {
    forall k :: k in subs ==>
      subs[k].id == k && subs[k].subscriberId in userIds && subs[k].traderId in traderIds
  }

  lemma SubscriptionsPut(subs: map<nat, Subscription>, userIds: set<nat>, traderIds: set<nat>,
                         sub: Subscription)
    requires SubscriptionsOk(subs, userIds, traderIds)
    requires sub.subscriberId in userIds && sub.traderId in traderIds
    ensures SubscriptionsOk(subs[sub.id := sub], userIds, traderIds)
  {
  }

  lemma SubscriptionsWiden(subs: map<nat, Subscription>, userIds: set<nat>, traderIds: set<nat>,
                           userIds': set<nat>, traderIds': set<nat>)
    requires SubscriptionsOk(subs, userIds, traderIds) && userIds <= userIds' && traderIds <= traderIds'
    ensures SubscriptionsOk(subs, userIds', traderIds')
  {
  }

  /** A wallet is stored under its (user, currency) pair. */
  ghost predicate WalletsOk(wallets: map<(nat, string), Wallet>, userIds: set<nat>) {
    forall key :: key in wallets ==>
      key.0 in userIds && wallets[key].userId == key.0 && wallets[key].currency == key.1
  }

  lemma WalletsPut(wallets: map<(nat, string), Wallet>, userIds: set<nat>, w: Wallet)
    requires WalletsOk(wallets, userIds) && w.userId in userIds
    ensures WalletsOk(wallets[(w.userId, w.currency) := w], userIds)
  {
  }

  lemma WalletsWiden(wallets: map<(nat, string), Wallet>, userIds: set<nat>, userIds': set<nat>)
    requires WalletsOk(wallets, userIds) && userIds <= userIds'
    ensures WalletsOk(wallets, userIds')
  {
  }

  /** The log only names existing users, and its ids increase along it. */
  ghost predicate TransactionsOk(txs: seq<Transaction>, userIds: set<nat>) {
    && (forall i :: 0 <= i < |txs| ==> txs[i].userId in userIds)
    && (forall i, j :: 0 <= i < j < |txs| ==> txs[i].id < txs[j].id)
  }

  /** Appending an entry whose id is above every id in the log. */
  lemma TransactionsAppend(txs: seq<Transaction>, userIds: set<nat>, tx: Transaction)
    requires TransactionsOk(txs, userIds) && TransactionIdsBelow(txs, tx.id) && tx.userId in userIds
    ensures TransactionsOk(txs + [tx], userIds)
  {
  }

  lemma TransactionsWiden(txs: seq<Transaction>, userIds: set<nat>, userIds': set<nat>)
    requires TransactionsOk(txs, userIds) && userIds <= userIds'
    ensures TransactionsOk(txs, userIds')
  {
  }

  ghost predicate TraderSignalsOk(signals: map<nat, TraderSignal>) {
    forall k :: k in signals ==> signals[k].id == k
  }

  ghost predicate CopyTradesOk(copyTrades: map<nat, CopyTrade>, userIds: set<nat>, tradeIds: set<nat>) {
    forall k :: k in copyTrades ==>
      copyTrades[k].id == k && copyTrades[k].subscriberId in userIds
      && copyTrades[k].copiedTradeId in tradeIds
  }

  lemma CopyTradesPut(copyTrades: map<nat, CopyTrade>, userIds: set<nat>, tradeIds: set<nat>, c: CopyTrade)
    requires CopyTradesOk(copyTrades, userIds, tradeIds)
    requires c.subscriberId in userIds && c.copiedTradeId in tradeIds
    ensures CopyTradesOk(copyTrades[c.id := c], userIds, tradeIds)
  {
  }

  lemma CopyTradesWiden(copyTrades: map<nat, CopyTrade>, userIds: set<nat>, tradeIds: set<nat>,
                        userIds': set<nat>, tradeIds': set<nat>)
    requires CopyTradesOk(copyTrades, userIds, tradeIds) && userIds <= userIds' && tradeIds <= tradeIds'
    ensures CopyTradesOk(copyTrades, userIds', tradeIds')
  {
  }

  // ---------------------------------------------------------------------
  // Catalogue tables
  // ---------------------------------------------------------------------

  /** Assets satisfy their schema and symbols are unique. */
  ghost predicate AssetsOk(assets: map<nat, Asset>) {
    && (forall k :: k in assets ==> assets[k].id == k && ValidAsset(assets[k]))
    && (forall j, k :: j in assets && k in assets && assets[j].symbol == assets[k].symbol ==> j == k)
  }

  /** Rewriting an asset with a valid row whose symbol no other asset has. */
  lemma AssetsReplace(assets: map<nat, Asset>, a: Asset)
    requires AssetsOk(assets) && a.id in assets && ValidAsset(a)
    requires forall k :: k in assets && k != a.id ==> assets[k].symbol != a.symbol
    ensures AssetsOk(assets[a.id := a]) && assets[a.id := a].Keys == assets.Keys
  {
  }

  lemma AssetsRemove(assets: map<nat, Asset>, id: nat)
    requires AssetsOk(assets)
    ensures AssetsOk(assets - {id})
  {
  }

  ghost predicate SignalsOk(signals: map<nat, Signal>, assetIds: set<nat>) {
    forall k :: k in signals ==>
      signals[k].id == k && signals[k].assetId in assetIds && ValidSignal(signals[k])
  }

  lemma SignalsPut(signals: map<nat, Signal>, assetIds: set<nat>, sig: Signal)
    requires SignalsOk(signals, assetIds) && sig.assetId in assetIds && ValidSignal(sig)
    ensures SignalsOk(signals[sig.id := sig], assetIds)
  {
  }

  lemma SignalsRemove(signals: map<nat, Signal>, assetIds: set<nat>, id: nat)
    requires SignalsOk(signals, assetIds)
    ensures SignalsOk(signals - {id}, assetIds)
  {
  }

  /** Dropping an asset together with its signals leaves none dangling. */
  lemma SignalsWithoutAssetOk(signals: map<nat, Signal>, assetIds: set<nat>, id: nat)
    requires SignalsOk(signals, assetIds)
    ensures SignalsOk(SignalsWithoutAsset(signals, id), assetIds - {id})
  {
  }

  ghost predicate SimulatedTradesOk(trades: map<nat, SimulatedTrade>, assetIds: set<nat>) {
    forall k :: k in trades ==> trades[k].id == k && trades[k].assetId in assetIds
  }

  lemma SimulatedTradesPut(trades: map<nat, SimulatedTrade>, assetIds: set<nat>, t: SimulatedTrade)
    requires SimulatedTradesOk(trades, assetIds) && t.assetId in assetIds
    ensures SimulatedTradesOk(trades[t.id := t], assetIds)
  {
  }

  /** Dropping an asset together with its simulated trades. */
  lemma TradesWithoutAssetOk(trades: map<nat, SimulatedTrade>, assetIds: set<nat>, id: nat)
    requires SimulatedTradesOk(trades, assetIds)
    ensures SimulatedTradesOk(TradesWithoutAsset(trades, id), assetIds - {id})
  {
  }

  ghost predicate CopyTradersOk(copyTraders: map<nat, CopyTrader>) {
    forall k :: k in copyTraders ==> copyTraders[k].id == k && ValidCopyTraderRow(copyTraders[k])
  }

  lemma CopyTradersPut(copyTraders: map<nat, CopyTrader>, c: CopyTrader)
    requires CopyTradersOk(copyTraders) && ValidCopyTraderRow(c)
    ensures CopyTradersOk(copyTraders[c.id := c])
  {
  }

  lemma CopyTradersRemove(copyTraders: map<nat, CopyTrader>, id: nat)
    requires CopyTradersOk(copyTraders)
    ensures CopyTradersOk(copyTraders - {id})
  {
  }
}
